=== FILE: README.md ===
# secure-deps core, modelled in Dafny

secure-deps checks a project's native dependencies against an allowlist. It
also rewrites the `GIT_REPOSITORY` values of CMake `FetchContent_Declare` calls
to approved mirrors. This project models the pure core of those two jobs and
proves properties of the model:

- **FetchContent rewriter** (`src/cmake_fetchcontent.cpp`):
  - the flat CMake lexer `TokenizeCMake` (modules `Lexer`, `Base`);
  - the parenthesis matcher `FindMatchingParen` (module `Parens`);
  - the two scanning loops of `ReplaceFetchContentRepos` (module `Calls`);
  - its lookup and logging, including `AddUnique` (modules `Planner`, `Unique`);
  - its back-to-front `std::string::replace` loop (module `Splice`);
  - the whole function and its `RepoReplaceResult` (module `FetchContent`).
- **Allowlist and repository-map parsers** (`src/allowlist.cpp`, module
  `Allowlist`). Their `std::getline` loop is module `TextLines`.
- **Makefile scanner** (`src/makefile_parser.cpp`, module `Makefile`). The
  comment blanker is modelled as written. The one `std::regex` pattern
  `-l(:?[A-Za-z0-9_./+\-]+)` is an explicit leftmost, greedy,
  non-overlapping scanner, proved to find exactly the matches of the pattern.
- **Report helpers** of `src/main.cpp`:
  - `UniquePreserveOrder` (module `Unique`);
  - `JsonEscape` and `JsonArray` (module `Json`). A decoder for the string
    syntax of section 7 of RFC 8259 reads their output back.

Every function is a pure Dafny function over `string` (a `seq<char>`). Each
`char` stands for one byte of the input.

The model follows the code as written. In particular:

- Every `git_repository` keyword inside a call is processed, not only the
  first.
- The outer loop resumes at the token after the call's name, not after its
  closing `)`. A `fetchcontent_declare(` nested inside another call therefore
  has its values planned twice (see Findings).
- `isspace` is the six bytes of the C locale: space, `\t`, `\n`, `\v`, `\f`
  and `\r`.
- Token texts are raw bytes. String escapes are never decoded, and an
  unterminated string loses its last byte.

## Model

| member | source | states |
|---|---|---|
| Base.LowerChar | src/cmake_fetchcontent.cpp:25-27 | `tolower` in the C locale: an upper-case ASCII letter moves up by 32 to its lower-case letter, every other byte is kept, and the result is never upper case |
| Base.ToLower | src/cmake_fetchcontent.cpp:23-29 | the result has the input's length, and each byte is the lower-cased input byte at the same position |
| Base.ToLowerIdempotent | src/cmake_fetchcontent.cpp:23-29 | lower-casing twice is the same as lower-casing once |
| Lexer.CommentEnd | src/cmake_fetchcontent.cpp:40-45 | a comment runs to the next `\n` or to the end of the text, and contains no `\n` before that |
| Lexer.WordEnd | src/cmake_fetchcontent.cpp:76-86 | a Word extends over bytes that are not whitespace, `(`, `)` or `#`, and stops at the first byte that is one of these, or at the end |
| Lexer.StringEnd | src/cmake_fetchcontent.cpp:46-61 | a string ends just after its closing quote, or at the end of the text when it is unterminated |
| Lexer.StringEndIsFirstCloser | src/cmake_fetchcontent.cpp:50-61 | the scan stops just after the first quote of the body that follows an even run of backslashes. It reaches the end of the text exactly when no such quote exists |
| Lexer.TokenizeFrom | src/cmake_fetchcontent.cpp:34-87 | every token from position `i` on starts at or after `i` and satisfies `TokenOk`. The token spans are ascending and disjoint |
| Lexer.Tokenize | src/cmake_fetchcontent.cpp:31-89 | every token has `start < end <= |content|`. A Word is the exact bytes of its span, has no whitespace, paren or `#`, and does not start with a quote. A Punct is one `(` or `)`. A String starts with its quote and ends where `StringEnd` stops, just after the first unescaped closing quote or at the end of the text (see Lexer.StringEndIsFirstCloser). Its text is the raw bytes between the quotes (a lost last byte when unterminated). Consecutive tokens do not overlap |
| Lexer.TokenizeCovers | src/cmake_fetchcontent.cpp:34-45 | every byte not under a token is whitespace or lies on the same line after a `#` that no token covers (so a `#` inside a String never starts a comment); the lexer drops nothing else |
| Lexer.TokenizeSkipsComments | src/cmake_fetchcontent.cpp:40-45 | conversely, a `#` that no token covers starts a comment, and no token covers any byte of it up to the newline |
| Parens.ScanFrom | src/cmake_fetchcontent.cpp:98-112 | the depth-counting loop returns an index only if it closes the open paren. When it returns nothing, the depth stays at least one to the end |
| Parens.FindMatchingParen | src/cmake_fetchcontent.cpp:91-113 | no result unless `open` is an `(` token. A result `k` is a `)` after `open` where the depth over `tokens[open..k]` stays at least one before `k` and drops to zero at `k`. No result means the paren is never closed |
| Parens.MatchIsUnique | src/cmake_fetchcontent.cpp:99-111 | an open paren has at most one matching close |
| Parens.FindMatchingParenComplete | src/cmake_fetchcontent.cpp:91-113 | whenever a matching close exists, the matcher returns it |
| Calls.CallEnd | src/cmake_fetchcontent.cpp:141-154 | a call is found only at a Word equal to `fetchcontent_declare` ignoring ASCII case, followed by an `(` token whose matching `)` it returns. An unmatched `(` gives no call |
| Calls.ValueAfter | src/cmake_fetchcontent.cpp:159-174 | after a `git_repository` keyword the value is the first token past the `(` tokens, if it is a Word or String before the call's `)`. No value means no valid site exists for that keyword |
| Calls.CallSites | src/cmake_fetchcontent.cpp:155-174 | the inner loop records at most one site per token between the call's `(` and its `)` |
| Calls.CallSitesValid | src/cmake_fetchcontent.cpp:155-174 | the inner loop records only valid sites of this call, one per keyword, in keyword order |
| Calls.SitesFromOrdered | src/cmake_fetchcontent.cpp:141-174 | sites are listed by call position, then by keyword position, as the nested loops reach them |
| Calls.Sites | src/cmake_fetchcontent.cpp:141-174 | every site the two loops record is valid |
| Calls.SitesAreValidSites | src/cmake_fetchcontent.cpp:141-174 | a site is recorded if and only if it is valid, so every keyword occurrence in every matched call is used |
| Calls.SiteValuesFollowKeywords | src/cmake_fetchcontent.cpp:162-167 | a later keyword has a later value, and two sites with the same keyword have the same value |
| Calls.NestedSitesRevisited | src/cmake_fetchcontent.cpp:141-155 | a site of a call nested inside another call is recorded twice: once for the inner call and once for the outer call, with the same value token |
| Calls.SitesAscendingWhenNotNested | src/cmake_fetchcontent.cpp:141-174 | when no matched call contains another, the recorded value tokens are strictly ascending |
| Unique.AddUnique | src/cmake_fetchcontent.cpp:115-120 | the value is appended exactly when it is not yet in the list. Otherwise the list is unchanged, so a list without duplicates stays without duplicates |
| Unique.UniquePreserveOrder | src/main.cpp:40-49 | the result has no duplicates and holds exactly the input's values |
| Unique.UniqueOrderedByFirstOccurrence | src/main.cpp:40-49 | the kept values come in the order of their first occurrence in the input |
| Unique.UniqueOfNoDups | src/main.cpp:40-49 | a list without duplicates is returned unchanged |
| Unique.UniqueIdempotent | src/main.cpp:40-49 | applying the function twice gives the same result as applying it once |
| Planner.Requote | src/cmake_fetchcontent.cpp:182-184 | for a String the new text is the mapped value between two copies of the token's own quote; for any other token it is the mapped value |
| Planner.PlanValue | src/cmake_fetchcontent.cpp:175-187 | a value in the map adds exactly one edit, the token's `TokenEdit`, after the earlier ones and logs `text => mapped`; a value not in the map adds no edit, leaves the replaced log alone and logs the text as missing |
| Planner.PlanSites | src/cmake_fetchcontent.cpp:175-188 | both logs are free of duplicates. Every missing text is absent from the map. Every edit's original is in the map and its replacement is the mapped value. There is at most one edit per site |
| Planner.HitSitesComplete | src/cmake_fetchcontent.cpp:176-182 | the hit sites, those whose value text is in the map, are listed in increasing order and none is left out |
| Planner.PlanEditsAreHits | src/cmake_fetchcontent.cpp:175-187 | the edits are exactly one per hit site, in site order: edit `a` replaces the value token of the `a`-th hit by its re-quoted mapped text |
| Planner.PlanLogsAreUnique | src/cmake_fetchcontent.cpp:176-188 | the missing log is the first-occurrence de-duplication of all missed texts in site order. The replaced log is the first-occurrence de-duplication of `orig => mapped` over the hit sites in site order |
| Planner.PlanLogsMembership | src/cmake_fetchcontent.cpp:176-188 | a text is logged as missing if and only if some site's text is not in the map. A line `orig => mapped` is logged if and only if some site's text `orig` maps to `mapped` |
| Planner.PlanWithoutHits | src/cmake_fetchcontent.cpp:176-181 | when no site's text is in the map, nothing is edited and nothing is logged as replaced |
| Planner.PlanEditsFaithful | src/cmake_fetchcontent.cpp:182-187 | in byte terms, each edit spans a non-empty range of the content whose bytes are its looked-up text: inside the quotes when the range starts with a quote, which the new text then wraps around the mapped value, and the whole range with the bare mapped value otherwise |
| Planner.PlanEditsAscending | src/cmake_fetchcontent.cpp:175-187 | when sites come with strictly ascending value tokens, the planned edits are in bounds, ascending and disjoint |
| Planner.EditForSite | src/cmake_fetchcontent.cpp:182-187 | every site whose text is in the map has an edit over exactly its value token's span |
| Planner.RevisitedTokenEditedTwice | src/cmake_fetchcontent.cpp:175-187 | a value token reached twice with a hit gets two edits with the same span |
| Planner.RevisitedTokenOverlaps | src/cmake_fetchcontent.cpp:175-187 | such a pair of edits is never in ascending, disjoint order |
| Splice.ApplyReverse | src/cmake_fetchcontent.cpp:192-195 | no edits leave the text as it is. A failure is the `out_of_range` of some edit's start lying past the end of the text as it then stands |
| Splice.StringReplace | src/cmake_fetchcontent.cpp:194 | `replace(pos, len, str)` throws exactly when `pos` is past the end. Otherwise it keeps the bytes before `pos`, then writes `str`, then keeps the bytes after `pos + len` (clamped to the end) |
| Splice.ApplyReverseAssembles | src/cmake_fetchcontent.cpp:192-195 | for ascending, disjoint edits the back-to-front loop never throws. Its result equals a front-to-back assembly from the original offsets |
| Splice.AssembleKeepsOutside | src/cmake_fetchcontent.cpp:192-195 | that assembly changes the length by the sum of the per-edit deltas. Every byte outside the spans is kept, shifted by the deltas of the edits before it |
| Splice.SpliceOrdered | src/cmake_fetchcontent.cpp:192-195 | for ascending, disjoint edits the reverse splice succeeds and splices in place |
| FetchContent.ReplaceFetchContentRepos | src/cmake_fetchcontent.cpp:124-198 | on success both logs are free of duplicates, and no missing text is in the map. `Failure` is the `std::out_of_range` the splice throws |
| FetchContent.PlanOfFaithful | src/cmake_fetchcontent.cpp:175-187 | in byte terms, every planned edit replaces a range of the content holding a text that is in the map by the mapped text, re-quoted if and only if the range starts with a quote |
| FetchContent.PlanOfEditsAreSiteEdits | src/cmake_fetchcontent.cpp:141-187 | an edit is planned if and only if it is the edit of the value token at a valid site (a `git_repository` keyword inside a matched `fetchcontent_declare(` call) whose text is in the map |
| FetchContent.RewriteLogs | src/cmake_fetchcontent.cpp:175-188 | `missing` holds exactly the value texts the loops reach that are not in the map. `replaced` holds exactly the lines `orig => m[orig]` for reached texts in the map |
| FetchContent.RewriteWithoutHits | tests/test_cmake_fetchcontent.cpp:38-48 | when no reached value is in the map, the rewrite succeeds, the output is the content byte for byte, nothing is replaced, and every reached text is listed as missing |
| FetchContent.PlanAscendingWhenNotNested | src/cmake_fetchcontent.cpp:141-187 | when no matched call contains another, the plan's spans are ascending and disjoint |
| FetchContent.RewriteWhenNotNested | src/cmake_fetchcontent.cpp:141-195 | when no matched call contains another, the rewrite succeeds. Its output keeps every byte outside the planned spans, and its length changes by the sum of the per-edit deltas |
| FetchContent.RewriteOrderedPlan | src/cmake_fetchcontent.cpp:192-197 | whenever the plan is ascending, the rewrite succeeds and splices in place |
| FetchContent.NestedCallsOverlap | src/cmake_fetchcontent.cpp:141-195 | a mapped value inside a call nested in another call is planned twice, so the plan is not ascending and disjoint |
| FetchContent.RepeatedEditExample | src/cmake_fetchcontent.cpp:192-195 | splicing two copies of the edit `a => bbbb` of one span, as a nested call plans them, turns `(x a)` into `(x bbbbbbb)` |
| FetchContent.StaleOffsetExample | src/cmake_fetchcontent.cpp:192-195 | when a shortening edit is repeated around a later one, the later edit's original start lies past the end of the shortened text and the splice fails with `out_of_range` |
| FetchContent.TopLevelPlanOf | src/cmake_fetchcontent.cpp:141-190 | with the outer loop resuming after each call's `)`, the plan is always ascending and disjoint |
| FetchContent.TopLevelPlanFaithful | src/cmake_fetchcontent.cpp:175-187 | in byte terms, every edit of that plan replaces a range holding a mapped text by the mapped value, re-quoted if and only if the range starts with a quote |
| FetchContent.TopLevelEditsAtSites | src/cmake_fetchcontent.cpp:155-187 | every edit of that plan is the edit of the value token at a valid site whose text is in the map |
| FetchContent.ReplaceTopLevelRepos | src/cmake_fetchcontent.cpp:141-197 | the corrected rewrite always splices in place, and both logs are free of duplicates |
| FetchContent.TopLevelAgreesWithSource | src/cmake_fetchcontent.cpp:141-197 | on input with no nested calls, the corrected rewrite gives exactly the original's result |
| Allowlist.Trim | src/allowlist.cpp:8-18 | the result is no longer than the input and has no whitespace at either end |
| Allowlist.TrimCharacterised | src/allowlist.cpp:8-18 | `Trim(s) == t` if and only if `t` is the contiguous slice of `s` left after removing the leading and trailing whitespace |
| Allowlist.TrimIdempotent | src/allowlist.cpp:8-18 | trimming twice is the same as trimming once |
| Allowlist.StripQuotes | src/allowlist.cpp:20-29 | the first and last bytes are dropped exactly when the input has at least two bytes and both ends are the same quote (`'` or `"`). Otherwise the input is returned unchanged |
| Allowlist.StripQuotesOfQuoted | src/allowlist.cpp:20-29 | stripping a quoted text gives back the text inside |
| Allowlist.StripInlineComment | src/allowlist.cpp:31-45 | the result is a prefix of the line, cut at the first `#` outside single- or double-quoted regions. No byte before the cut starts such a comment |
| Allowlist.StripInlineCommentNoHash | src/allowlist.cpp:31-45 | a line without `#` is returned unchanged |
| Allowlist.NormalizeLibName | src/allowlist.cpp:47-56 | a leading `-l:` goes, else a leading `-l`, else a leading `:`, and nothing else changes. The result is always the input with one of the prefixes nothing, `:`, `-l` or `-l:` removed |
| Allowlist.NormalizeLibNameOfPrefix | src/allowlist.cpp:47-56 | putting `:` or `-l:` in front of any name is undone exactly, and so is `-l` in front of a name that does not start with `:`. A plain name is kept |
| Allowlist.AllowEntry | src/allowlist.cpp:65-70 | a line contributes a name if and only if it is non-empty after comment stripping and trimming; the name is no longer than the line |
| Allowlist.ParseAllowlist | src/allowlist.cpp:60-73 | a name is allowed if and only if some input line, after comment stripping and trimming, is non-empty and normalises (quotes stripped, prefix dropped) to that name |
| Allowlist.AllowEntryBare | tests/test_allowlist.cpp:5-17 | a bare library name on a line is allowed as itself |
| Allowlist.AllowEntryFlag | tests/test_allowlist.cpp:5-17 | a line `-l<name>` allows `<name>` |
| Allowlist.AllowEntryQuoted | tests/test_allowlist.cpp:5-17 | a double-quoted name allows the name without its quotes |
| Allowlist.AllowEntryComment | src/allowlist.cpp:65-69 | a comment-only line adds nothing |
| Allowlist.FindArrow | src/allowlist.cpp:85-88 | the search returns the first `=>` at or after the start position, and no result means there is none |
| Allowlist.RepoEntry | src/allowlist.cpp:80-95 | a cleaned line without `=>` yields nothing. With one, it is split at the first `=>`, each side trimmed and unquoted, and the line yields exactly that pair when both sides are non-empty |
| Allowlist.RepoEntries | src/allowlist.cpp:80-95 | one entry per line, each that line's `RepoEntry`, and every entry present has a non-empty key and value |
| Allowlist.StoreAll | src/allowlist.cpp:79-96 | a key is stored if and only if some entry maps it |
| Allowlist.ParseRepoMap | src/allowlist.cpp:75-97 | a key is mapped if and only if some line yields an entry for it |
| Allowlist.StoredValuesAreEntries | src/allowlist.cpp:89-95 | every stored pair comes from one line's entry |
| Allowlist.RepoMapNonEmpty | src/allowlist.cpp:93-95 | no key or value of the map is empty |
| Allowlist.LastEntryWins | src/allowlist.cpp:94 | a key takes the value of its last line, and earlier lines are overwritten without complaint |
| Allowlist.ParseConcatenation | src/allowlist.cpp:60-97 | parsing two texts one after the other (the first ending in a line break) equals the union of their allowlists, and the second map overriding the first |
| Allowlist.RepoEntryRoundTrip | tests/test_allowlist.cpp:19-29 | a line `key => value`, each side bare or double-quoted, yields exactly the mapping `key` to `value` |
| TextLines.Lines | src/allowlist.cpp:62-64 | no line read contains `\n`, and a non-empty text reads at least one line |
| TextLines.LinesOfJoin | src/allowlist.cpp:62-64 | reading back lines written each with a final `\n` gives the same lines |
| TextLines.JoinOfLines | src/allowlist.cpp:62-64 | writing back the lines read restores the text, with a final `\n` added when it lacked one |
| TextLines.LinesAppend | src/allowlist.cpp:62-64 | a text of whole lines followed by more text reads as the lines of the first, then the lines of the second |
| Makefile.StripMakefileComments | src/makefile_parser.cpp:7-29 | the length is kept. A byte becomes a space exactly when it lies from a `#` up to, but not including, the next `\n`. Every other byte is kept |
| Makefile.StrippedLayout | src/makefile_parser.cpp:11-27 | the output has no `#`, and has a `\n` exactly where the input has one |
| Makefile.StripWithoutHash | src/makefile_parser.cpp:21-26 | a text without `#` is returned unchanged |
| Makefile.StripIdempotent | src/makefile_parser.cpp:7-29 | blanking comments twice is the same as blanking them once |
| Makefile.MatchAtIsLongestMatch | src/makefile_parser.cpp:42 | at a position, the scanner returns the end of the longest match of `-l(:?[A-Za-z0-9_./+\-]+)` that starts there, and nothing when no match starts there |
| Makefile.MatchAt | src/makefile_parser.cpp:42 | a match at `p` ends at least three bytes later and inside the text |
| Makefile.HitsFrom | src/makefile_parser.cpp:44-46 | every hit starts at or after the search position and is a match of at least three bytes inside the text |
| Makefile.HitsAreMatches | src/makefile_parser.cpp:44-46 | every hit is the longest match at its start, and hits do not overlap and come in order |
| Makefile.HitsLeftmost | src/makefile_parser.cpp:44-46 | no match starts at a position outside every hit, so the hits are the leftmost matches |
| Makefile.NormalizeLibraryToken | src/makefile_parser.cpp:31-36 | the token is the result or `:` followed by it, and the result is shorter exactly when the token starts with `:` |
| Makefile.NormalizeDropsColon | src/makefile_parser.cpp:31-36 | exactly one leading `:` is removed when present. Any other token is kept |
| Makefile.ExtractLibrariesFromMakefile | src/makefile_parser.cpp:40-51 | one name per hit in the comment-blanked text, in order, duplicates kept |
| Makefile.ExtractedNamesAreRuns | src/makefile_parser.cpp:42-49 | every extracted name is non-empty and made only of `[A-Za-z0-9_./+-]` |
| Makefile.HitsAvoidComments | src/makefile_parser.cpp:41-46 | no byte of a hit lies inside a `#` comment of the original text |
| Makefile.ExtractFlags | tests/test_makefile_parser.cpp:5-18 | a text of `-l<name> ` flags, each followed by a space, yields exactly those names in order |
| Makefile.FlagNamesAgree | src/makefile_parser.cpp:31-36 | the allowlist's normalisation of `-l<group>` equals the scanner's normalisation of `<group>`, so both sides name a library the same way |
| Json.EscapeChar | src/main.cpp:55-86 | a byte is written as itself exactly when it is not below 0x20, `"` or `\`. Otherwise it becomes a backslash escape. No output byte is below 0x20 |
| Json.EscapeTable | src/main.cpp:55-86 | the escape table: `"` and `\` become `\"` and `\\`, and 0x08, 0x0C, 0x0A, 0x0D and 0x09 become `\b`, `\f`, `\n`, `\r` and `\t`. Every other byte below 0x20 becomes `\u00` and two lower-case hex digits of its value. All other bytes are written as themselves |
| Json.JsonEscape | src/main.cpp:51-90 | the output is at least as long as the input and contains no control byte |
| Json.JsonEscapeAppend | src/main.cpp:54-88 | escaping works byte by byte: the escape of a concatenation is the concatenation of the escapes |
| Json.JsonEscapeOne | src/main.cpp:54-88 | a single byte is written as its `EscapeChar`, so with JsonEscapeAppend the output is the escapes of the input bytes in order |
| Json.EscapePlain | src/main.cpp:83-85 | a text without quotes, backslashes or control bytes is written unchanged |
| Json.DecodeEscaped | src/main.cpp:51-90 | decoding the escaped text per section 7 of RFC 8259 returns the input and stops at the closing quote |
| Json.JsonArray | src/main.cpp:92-103 | the output starts with `[` and ends with `]` |
| Json.ArrayRoundTrip | src/main.cpp:92-103 | reading back the array gives the same strings in the same order, and `[]` for none |

## Left out

- File I/O, argument parsing, printing and exit codes. This covers `ReadTextFile`, `WriteTextFile`, `PrintUsage`, `RunMakefileCheck`, `RunCmakeRewrite` and `main` in src/main.cpp. They are plumbing around the modelled functions.
- The general `std::regex` engine. Only the one fixed pattern of src/makefile_parser.cpp:42 is modelled, as a scanner proved equal to its leftmost-longest matches.
- Hash-container internals. `std::unordered_set` is a Dafny `set` and `std::unordered_map` is a Dafny `map`. Their iteration order never reaches an output, because the logs are sequences.
- Locale. `isspace` and `tolower` are those of the C locale.
- Bytes at or above 0x80 are opaque characters: no multi-byte encoding is interpreted.
- `std::getline` is a split on `\n`. A final `\n` does not start an empty extra line, and empty lines are skipped by both parsers anyway.
- Parens.FindMatchingParen: the `int depth` counter (src/cmake_fetchcontent.cpp:98) is modelled as unbounded. It would overflow only after more than 2^31 - 1 unclosed `(` tokens; inputs that large are left out.
- Json.DecodeEscaped: the decoder does not join surrogate pairs. The array reader accepts no whitespace between items. Both are choices of the reader, not of the code; `JsonEscape` writes only `\u00xx` escapes, and `JsonArray` writes no whitespace.
- Planner.PlanSites: its own contract bounds the number of edits and ties each edit to the map, but not to a site. Planner.PlanEditsAreHits states which site each edit belongs to.
- Makefile.MatchAt: its own contract only bounds the match. Makefile.MatchAtIsLongestMatch states that it is the longest match of the pattern.
- Makefile.HitsFrom: its own contract only bounds the hits. Makefile.HitsAreMatches and Makefile.HitsLeftmost state that they are the leftmost-longest matches.
- Makefile.ExtractLibrariesFromMakefile: its own contract states only the number of names. Their content, order and comment avoidance are stated by the lemmas named in its rows.
- The header declares the public functions with `const&` parameters while the definitions take values. This is a linkage detail; each function is modelled once as a pure function.

## Findings

| source | as written | input that shows it | evidently intended | confidence | as-written member | corrected member |
|---|---|---|---|---|---|---|
| src/cmake_fetchcontent.cpp:141-195 | after a call is processed, the outer loop goes on at the token after the call's name, not after its `)`. A `fetchcontent_declare(` nested inside another call has its values planned twice, once per enclosing call. The reverse splice then rewrites an already rewritten span using the original offsets | `FetchContent_Declare(outer FetchContent_Declare(inner GIT_REPOSITORY a))` with the map `a => bbbb`: two edits of the span of `a`, so the output has `bbbbbbb` where `bbbb` is expected. With other spans the second edit can start past the end and throw `std::out_of_range`. FetchContent.RepeatedEditExample splices such a pair of edits on a small text; FetchContent.StaleOffsetExample shows the throw | each value token is rewritten at most once, as when the loop resumes after the call's `)`, and the output keeps every byte outside the rewritten values | not executed | FetchContent.NestedCallsOverlap | FetchContent.ReplaceTopLevelRepos |

=== FILE: allowlist.dfy ===
/**
 * src/allowlist.cpp: the line-oriented readers of the library allowlist and
 * of the repository map, with their helpers `Trim`, `StripQuotes`,
 * `StripInlineComment` and `NormalizeLibName`. The hash containers the source
 * returns are modelled as a `set` and a `map`.
 */
module Allowlist {
  import opened Base
  import opened TextLines

  predicate AllSpace(s: string) {
    forall k | 0 <= k < |s| :: IsSpace(s[k])
  }

  /** The first loop of `Trim`: steps over leading whitespace from `i`. */
  function SkipLeading(s: string, i: nat): (r: nat)
    requires i <= |s|
    ensures i <= r <= |s|
    ensures forall k | i <= k < r :: IsSpace(s[k])
    ensures r == |s| || !IsSpace(s[r])
    decreases |s| - i
  {
    if i < |s| && IsSpace(s[i]) then SkipLeading(s, i + 1) else i
  }

  /** The second loop of `Trim`: steps back over trailing whitespace, never below `lo`. */
  function SkipTrailing(s: string, lo: nat, hi: nat): (r: nat)
    requires lo <= hi <= |s|
    ensures lo <= r <= hi
    ensures forall k | r <= k < hi :: IsSpace(s[k])
    ensures r == lo || !IsSpace(s[r - 1])
    decreases hi
  {
    if hi > lo && IsSpace(s[hi - 1]) then SkipTrailing(s, lo, hi - 1) else hi
  }

  /**
   * `t` is what is left of `s` once its leading and trailing whitespace is
   * removed: `s` is whitespace, then `t`, then whitespace, and `t` neither
   * starts nor ends with whitespace.
   */
  ghost predicate IsTrimOf(s: string, t: string) {
    && (t == [] || (!IsSpace(t[0]) && !IsSpace(t[|t| - 1])))
    && exists lo | 0 <= lo <= |s| - |t| ::
         s[lo..lo + |t|] == t && AllSpace(s[..lo]) && AllSpace(s[lo + |t|..])
  }

  /** `Trim`. */
  function Trim(s: string): (r: string)
    ensures |r| <= |s|
    ensures r == [] || (!IsSpace(r[0]) && !IsSpace(r[|r| - 1]))
  {
    var lo := SkipLeading(s, 0);
    var hi := SkipTrailing(s, lo, |s|);
    s[lo..hi]
  }

  lemma TrimIsTrimOf(s: string)
    ensures IsTrimOf(s, Trim(s))
  {
    var lo := SkipLeading(s, 0);
    var hi := SkipTrailing(s, lo, |s|);
    assert s[lo..lo + (hi - lo)] == Trim(s);
    assert AllSpace(s[..lo]) && AllSpace(s[hi..]);
  }

  lemma TrimUnique(s: string, t: string)
    requires IsTrimOf(s, t)
    ensures Trim(s) == t
  {
    var lo :| 0 <= lo <= |s| - |t| && s[lo..lo + |t|] == t && AllSpace(s[..lo]) && AllSpace(s[lo + |t|..]);
    assert forall k | 0 <= k < lo :: IsSpace(s[k]) by {
      forall k | 0 <= k < lo ensures IsSpace(s[k]) { assert s[..lo][k] == s[k]; }
    }
    assert forall k | lo + |t| <= k < |s| :: IsSpace(s[k]) by {
      forall k | lo + |t| <= k < |s| ensures IsSpace(s[k]) { assert s[lo + |t|..][k - lo - |t|] == s[k]; }
    }
    var a := SkipLeading(s, 0);
    if t == [] {
      assert a == |s|;
    } else {
      assert s[lo] == t[0] && s[lo + |t| - 1] == t[|t| - 1];
      assert a == lo;
      var b := SkipTrailing(s, a, |s|);
      assert b == lo + |t|;
    }
  }

  /** `Trim` removes exactly the surrounding whitespace, and nothing else satisfies that description. */
  lemma TrimCharacterised(s: string, t: string)
    ensures Trim(s) == t <==> IsTrimOf(s, t)
  {
    TrimIsTrimOf(s);
    if IsTrimOf(s, t) {
      TrimUnique(s, t);
    }
  }

  lemma TrimIdempotent(s: string)
    ensures Trim(Trim(s)) == Trim(s)
  {
    var t := Trim(s);
    assert t[0..0 + |t|] == t && t[..0] == [] && t[|t|..] == [];
    TrimUnique(t, t);
  }

  predicate QuotedBy(s: string) {
    |s| >= 2 && IsQuote(s[0]) && s[|s| - 1] == s[0]
  }

  /** `StripQuotes`: removes one pair of matching outer quotes, `'` or `"`. */
  function StripQuotes(s: string): (r: string)
    ensures QuotedBy(s) ==> s == [s[0]] + r + [s[0]]
    ensures !QuotedBy(s) ==> r == s
  {
    if QuotedBy(s) then s[1..|s| - 1] else s
  }

  /** Stripping the quotes a value was wrapped in gives back the value. */
  lemma StripQuotesOfQuoted(q: char, x: string)
    requires IsQuote(q)
    ensures StripQuotes([q] + x + [q]) == x
  {
    var s := [q] + x + [q];
    assert s[1..|s| - 1] == x;
  }

  /** Which quotes are open after the bytes before some position. */
  datatype Quoting = Quoting(single: bool, double: bool)

  /** One byte of the quote tracking in `StripInlineComment`; `#` leaves it as it is. */
  function Step(q: Quoting, ch: char): Quoting {
    if ch == '\'' && !q.double then Quoting(!q.single, q.double)
    else if ch == '"' && !q.single then Quoting(q.single, !q.double)
    else q
  }

  /** The quote state after `line[..i]`. */
  function QuotingAt(line: string, i: nat): (q: Quoting)
    requires i <= |line|
    ensures !(q.single && q.double)
  {
    if i == 0 then Quoting(false, false) else Step(QuotingAt(line, i - 1), line[i - 1])
  }

  /** A `#` outside both kinds of quotes starts a comment. */
  predicate CommentStartsAt(line: string, k: nat)
    requires k < |line|
  {
    line[k] == '#' && QuotingAt(line, k) == Quoting(false, false)
  }

  /** The loop of `StripInlineComment` from byte `i`, where `q` holds the quote flags. */
  function CommentCut(line: string, i: nat, q: Quoting): (r: nat)
    requires i <= |line| && q == QuotingAt(line, i)
    ensures i <= r <= |line|
    ensures r < |line| ==> CommentStartsAt(line, r)
    ensures forall k | i <= k < r :: !CommentStartsAt(line, k)
    decreases |line| - i
  {
    if i == |line| then i
    else
      var ch := line[i];
      if ch == '\'' && !q.double then CommentCut(line, i + 1, Quoting(!q.single, q.double))
      else if ch == '"' && !q.single then CommentCut(line, i + 1, Quoting(q.single, !q.double))
      else if ch == '#' && !q.single && !q.double then i
      else CommentCut(line, i + 1, q)
  }

  /**
   * `StripInlineComment`: the line up to its first `#` outside quotes, or the
   * whole line when there is none.
   */
  function StripInlineComment(line: string): (r: string)
    ensures |r| <= |line| && r == line[..|r|]
    ensures |r| < |line| ==> CommentStartsAt(line, |r|)
    ensures forall k | 0 <= k < |r| :: !CommentStartsAt(line, k)
  {
    line[..CommentCut(line, 0, Quoting(false, false))]
  }

  /** A line without `#` has no comment to strip. */
  lemma StripInlineCommentNoHash(line: string)
    requires '#' !in line
    ensures StripInlineComment(line) == line
  {
    assert forall k | 0 <= k < |line| :: line[k] != '#';
  }

  /** `NormalizeLibName`: drops a leading `-l`, then a leading `:`. */
  function NormalizeLibName(name: string): (r: string)
    ensures |r| <= |name| && r == name[|name| - |r|..]
    ensures name == r || name == ":" + r || name == "-l" + r || name == "-l:" + r
    ensures |name| >= 2 && name[..2] == "-l" ==> |r| <= |name| - 2
    ensures name != [] && name[0] == ':' ==> r == name[1..]
    ensures |name| >= 3 && name[..3] == "-l:" ==> r == name[3..]
    ensures |name| >= 2 && name[..2] == "-l" && !(|name| >= 3 && name[2] == ':') ==> r == name[2..]
    ensures !(|name| >= 2 && name[..2] == "-l") && !(name != [] && name[0] == ':') ==> r == name
  {
    var n := if |name| >= 2 && name[..2] == "-l" then name[2..] else name;
    assert name == n || name == "-l" + n;
    if n != [] && n[0] == ':' then
      assert n == ":" + n[1..];
      n[1..]
    else n
  }

  /**
   * `NormalizeLibName` removes exactly the prefix that was put in front of a
   * name: nothing, `:`, `-l` or `-l:`. Only one `:` is dropped, so after a
   * `:` the name may itself start with `:`.
   */
  lemma NormalizeLibNameOfPrefix(p: string, x: string)
    requires p == "" || p == ":" || p == "-l" || p == "-l:"
    requires (p == "" || p == "-l") ==> (x == [] || x[0] != ':')
    requires p == "" ==> !(|x| >= 2 && x[..2] == "-l")
    ensures NormalizeLibName(p + x) == x
  {
    var name := p + x;
    if p == "-l" || p == "-l:" {
      assert name[..2] == "-l" && name[2..] == p[2..] + x;
    } else if p == ":" {
      assert name[0] == ':' && name[1..] == x;
    } else {
      assert name == x;
    }
  }

  /** A line with its comment and surrounding whitespace removed. */
  function CleanLine(line: string): string {
    Trim(StripInlineComment(line))
  }

  /** The library name an allowlist line contributes, if any. */
  function AllowEntry(line: string): (r: Option<string>)
    ensures r.None? <==> CleanLine(line) == []
    ensures r.Some? ==> |r.value| <= |line|
  {
    var t := CleanLine(line);
    if t == [] then None else Some(NormalizeLibName(StripQuotes(t)))
  }

  /** What each line contributes to the allowlist, line by line. */
  function AllowEntries(ls: seq<string>): (r: seq<Option<string>>)
    ensures |r| == |ls|
    ensures forall k | 0 <= k < |ls| :: r[k] == AllowEntry(ls[k])
  {
    if ls == [] then [] else [AllowEntry(ls[0])] + AllowEntries(ls[1..])
  }

  /** The allowlist loop: every contributed name is inserted. */
  function InsertAll(es: seq<Option<string>>): (r: set<string>)
    ensures forall x :: x in r <==> Some(x) in es
    decreases |es|
  {
    if es == [] then {}
    else
      var init := es[..|es| - 1];
      assert es == init + [es[|es| - 1]];
      match es[|es| - 1]
      case Some(x) => InsertAll(init) + {x}
      case None => InsertAll(init)
  }

  /**
   * `ParseAllowlist`: the names of the lines that are not blank once their
   * comment and surrounding whitespace are gone, unquoted and normalized.
   */
  function ParseAllowlist(content: string): (r: set<string>)
    ensures forall x :: x in r <==> Some(x) in AllowEntries(Lines(content))
  {
    InsertAll(AllowEntries(Lines(content)))
  }

  /** A non-empty line with no whitespace at either end, no `#`, no quote and no line break. */
  predicate Bare(x: string) {
    && x != []
    && !IsSpace(x[0]) && !IsSpace(x[|x| - 1])
    && forall k | 0 <= k < |x| :: x[k] != '#' && !IsQuote(x[k]) && x[k] != '\n'
  }

  /** A name that `NormalizeLibName` leaves alone. */
  predicate PlainLibName(x: string) {
    Bare(x) && x[0] != ':' && !(|x| >= 2 && x[..2] == "-l")
  }

  lemma TrimOfBare(x: string)
    requires x != [] && !IsSpace(x[0]) && !IsSpace(x[|x| - 1])
    ensures Trim(x) == x
  {
    assert x[0..0 + |x|] == x && x[..0] == [] && x[|x|..] == [];
    TrimUnique(x, x);
  }

  /** A library listed by its bare name. */
  lemma AllowEntryBare(x: string)
    requires PlainLibName(x)
    ensures AllowEntry(x) == Some(x)
  {
    StripInlineCommentNoHash(x);
    TrimOfBare(x);
    assert !QuotedBy(x);
  }

  /** A library listed as the linker flag `-lname`. */
  lemma AllowEntryFlag(x: string)
    requires PlainLibName(x)
    ensures AllowEntry("-l" + x) == Some(x)
  {
    var f := "-l" + x;
    assert forall k | 2 <= k < |f| :: f[k] == x[k - 2];
    StripInlineCommentNoHash(f);
    TrimOfBare(f);
    assert !QuotedBy(f);
    assert f[..2] == "-l" && f[2..] == x;
  }

  /** A library listed in double quotes. */
  lemma AllowEntryQuoted(x: string)
    requires PlainLibName(x)
    ensures AllowEntry("\"" + x + "\"") == Some(x)
  {
    var q := "\"" + x + "\"";
    assert forall k | 1 <= k < |q| - 1 :: q[k] == x[k - 1];
    StripInlineCommentNoHash(q);
    TrimOfBare(q);
    StripQuotesOfQuoted('"', x);
  }

  /** A line that is only a comment lists nothing. */
  lemma AllowEntryComment(note: string)
    ensures AllowEntry("#" + note) == None
  {
    var c := "#" + note;
    assert CommentStartsAt(c, 0);
    assert StripInlineComment(c) == [];
  }

  /** A mapping read from one line of the repository map. */
  datatype Mapping = Mapping(key: string, value: string)

  /** `line.find("=>")` would stop at `k`. */
  predicate ArrowAt(t: string, k: nat) {
    k + 1 < |t| && t[k] == '=' && t[k + 1] == '>'
  }

  /** `line.find("=>")` from `i`: `None` stands for `npos`. */
  function FindArrow(t: string, i: nat): (r: Option<nat>)
    requires i <= |t|
    ensures r.Some? ==> i <= r.value && ArrowAt(t, r.value)
    ensures forall k | i <= k < |t| && (r.None? || k < r.value) :: !ArrowAt(t, k)
    decreases |t| - i
  {
    if i + 1 >= |t| then None
    else if t[i] == '=' && t[i + 1] == '>' then Some(i)
    else FindArrow(t, i + 1)
  }

  /**
   * The mapping a repository-map line contributes, if any: split at the first
   * `=>`, both sides trimmed, then unquoted, and both non-empty.
   */
  function RepoEntry(line: string): (r: Option<Mapping>)
    ensures r.Some? ==> r.value.key != [] && r.value.value != []
    ensures FindArrow(CleanLine(line), 0).None? ==> r.None?
    ensures FindArrow(CleanLine(line), 0).Some? ==>
      var t, a := CleanLine(line), FindArrow(CleanLine(line), 0).value;
      var left, right := StripQuotes(Trim(t[..a])), StripQuotes(Trim(t[a + 2..]));
      && (r.Some? <==> left != [] && right != [])
      && (r.Some? ==> r.value == Mapping(left, right))
  {
    var t := CleanLine(line);
    if t == [] then None
    else
      match FindArrow(t, 0)
      case None => None
      case Some(a) =>
        var left := StripQuotes(Trim(t[..a]));
        var right := StripQuotes(Trim(t[a + 2..]));
        if left != [] && right != [] then Some(Mapping(left, right)) else None
  }

  /** What each line contributes to the repository map, line by line. */
  function RepoEntries(ls: seq<string>): (r: seq<Option<Mapping>>)
    ensures |r| == |ls|
    ensures forall k | 0 <= k < |ls| :: r[k] == RepoEntry(ls[k])
    ensures forall k | 0 <= k < |r| && r[k].Some? :: r[k].value.key != [] && r[k].value.value != []
  {
    if ls == [] then [] else [RepoEntry(ls[0])] + RepoEntries(ls[1..])
  }

  /** Some entry maps `key`. */
  predicate MapsKey(es: seq<Option<Mapping>>, key: string) {
    exists i | 0 <= i < |es| :: es[i].Some? && es[i].value.key == key
  }

  /** The repository-map loop: `repo_map[left] = right`, so a later entry for a key overwrites. */
  function StoreAll(es: seq<Option<Mapping>>): (r: map<string, string>)
    ensures forall key :: key in r <==> MapsKey(es, key)
    decreases |es|
  {
    if es == [] then map[]
    else
      var init := es[..|es| - 1];
      assert forall k | 0 <= k < |init| :: init[k] == es[k];
      match es[|es| - 1]
      case Some(e) => StoreAll(init)[e.key := e.value]
      case None => StoreAll(init)
  }

  /** `ParseRepoMap`. */
  function ParseRepoMap(content: string): (r: map<string, string>)
    ensures forall key :: key in r <==> MapsKey(RepoEntries(Lines(content)), key)
  {
    StoreAll(RepoEntries(Lines(content)))
  }

  /** Each stored value comes from an entry for its key. */
  lemma {:induction false} StoredValuesAreEntries(es: seq<Option<Mapping>>, key: string)
    requires key in StoreAll(es)
    ensures Some(Mapping(key, StoreAll(es)[key])) in es
    decreases |es|
  {
    var init := es[..|es| - 1];
    assert es == init + [es[|es| - 1]];
    if !(es[|es| - 1].Some? && es[|es| - 1].value.key == key) {
      StoredValuesAreEntries(init, key);
    }
  }

  /** No key or value of a parsed repository map is empty. */
  lemma RepoMapNonEmpty(content: string)
    ensures forall key | key in ParseRepoMap(content) :: key != [] && ParseRepoMap(content)[key] != []
  {
    var es := RepoEntries(Lines(content));
    forall key | key in StoreAll(es)
      ensures key != [] && StoreAll(es)[key] != []
    {
      StoredValuesAreEntries(es, key);
    }
  }

  /** The last entry for a key decides its value. */
  lemma {:induction false} LastEntryWins(es: seq<Option<Mapping>>, i: nat, key: string, value: string)
    requires i < |es| && es[i] == Some(Mapping(key, value))
    requires forall j | i < j < |es| :: es[j].None? || es[j].value.key != key
    ensures key in StoreAll(es) && StoreAll(es)[key] == value
    decreases |es|
  {
    var init := es[..|es| - 1];
    if i < |es| - 1 {
      assert forall j | 0 <= j < |init| :: init[j] == es[j];
      LastEntryWins(init, i, key, value);
    }
  }

  lemma {:induction false} StoreAllAppend(xs: seq<Option<Mapping>>, ys: seq<Option<Mapping>>)
    ensures StoreAll(xs + ys) == StoreAll(xs) + StoreAll(ys)
    decreases |ys|
  {
    if ys == [] {
      assert xs + ys == xs;
    } else {
      var init := ys[..|ys| - 1];
      assert (xs + ys)[..|xs + ys| - 1] == xs + init;
      assert (xs + ys)[|xs + ys| - 1] == ys[|ys| - 1];
      StoreAllAppend(xs, init);
    }
  }

  /** The entries of two runs of lines are the entries of each run in turn. */
  lemma AllowEntriesAppend(xs: seq<string>, ys: seq<string>)
    ensures AllowEntries(xs + ys) == AllowEntries(xs) + AllowEntries(ys)
  {
  }

  /** The same for the repository map's entries. */
  lemma RepoEntriesAppend(xs: seq<string>, ys: seq<string>)
    ensures RepoEntries(xs + ys) == RepoEntries(xs) + RepoEntries(ys)
  {
  }

  /**
   * Reading two files one after the other: when the first ends with a line
   * break, the allowlist is the union of the two, and a key of the second
   * file's map overrides the same key of the first.
   */
  lemma ParseConcatenation(a: string, b: string)
    requires WholeLines(a)
    ensures ParseAllowlist(a + b) == ParseAllowlist(a) + ParseAllowlist(b)
    ensures ParseRepoMap(a + b) == ParseRepoMap(a) + ParseRepoMap(b)
  {
    LinesAppend(a, b);
    AllowlistOfLines(Lines(a), Lines(b));
    RepoMapOfLines(Lines(a), Lines(b));
  }

  lemma AllowlistOfLines(la: seq<string>, lb: seq<string>)
    ensures InsertAll(AllowEntries(la + lb)) == InsertAll(AllowEntries(la)) + InsertAll(AllowEntries(lb))
  {
    AllowEntriesAppend(la, lb);
    InsertAllAppend(AllowEntries(la), AllowEntries(lb));
  }

  lemma RepoMapOfLines(la: seq<string>, lb: seq<string>)
    ensures StoreAll(RepoEntries(la + lb)) == StoreAll(RepoEntries(la)) + StoreAll(RepoEntries(lb))
  {
    RepoEntriesAppend(la, lb);
    StoreAllAppend(RepoEntries(la), RepoEntries(lb));
  }

  lemma InsertAllAppend(xs: seq<Option<string>>, ys: seq<Option<string>>)
    ensures InsertAll(xs + ys) == InsertAll(xs) + InsertAll(ys)
  {
    forall x ensures x in InsertAll(xs + ys) <==> x in InsertAll(xs) + InsertAll(ys) {
      assert Some(x) in xs + ys <==> Some(x) in xs || Some(x) in ys;
    }
  }

  /** A map side written bare or in double quotes. */
  function Render(x: string, quoted: bool): string {
    if quoted then "\"" + x + "\"" else x
  }

  /** A key inside which the arrow search cannot stop. */
  predicate ArrowFree(x: string) {
    forall k | 0 <= k < |x| :: !ArrowAt(x, k)
  }

  lemma RenderFacts(x: string, quoted: bool)
    requires Bare(x)
    ensures var r := Render(x, quoted);
      && r != [] && !IsSpace(r[0]) && !IsSpace(r[|r| - 1])
      && (forall k | 0 <= k < |r| :: r[k] != '#' && r[k] != '\n')
      && StripQuotes(r) == x
      && (ArrowFree(x) ==> ArrowFree(r))
  {
    var r := Render(x, quoted);
    if quoted {
      assert forall k | 1 <= k < |r| - 1 :: r[k] == x[k - 1];
      StripQuotesOfQuoted('"', x);
      if ArrowFree(x) {
        forall k | 0 <= k < |r| ensures !ArrowAt(r, k) {
          if 1 <= k && k + 1 < |r| - 1 {
            assert !ArrowAt(x, k - 1);
          }
        }
      }
    } else {
      assert !QuotedBy(x);
    }
  }

  /** The line `l => v` has no comment and no surrounding whitespace to remove. */
  lemma ArrowLineIsClean(l: string, v: string)
    requires l != [] && !IsSpace(l[0]) && forall k | 0 <= k < |l| :: l[k] != '#'
    requires v != [] && !IsSpace(v[|v| - 1]) && forall k | 0 <= k < |v| :: v[k] != '#'
    ensures CleanLine(l + " => " + v) == l + " => " + v
  {
    var line := l + " => " + v;
    assert forall k | 0 <= k < |l| :: line[k] == l[k];
    assert forall k | |l| + 4 <= k < |line| :: line[k] == v[k - |l| - 4];
    StripInlineCommentNoHash(line);
    TrimOfBare(line);
  }

  /** The first `=>` of `l => v` is the one written there when `l` holds none. */
  lemma ArrowLineSplits(l: string, v: string)
    requires ArrowFree(l)
    ensures FindArrow(l + " => " + v, 0) == Some(|l| + 1)
  {
    var line := l + " => " + v;
    var a := |l| + 1;
    assert ArrowAt(line, a);
    forall k | 0 <= k < a
      ensures !ArrowAt(line, k)
    {
      if k + 1 < |l| {
        assert line[k] == l[k] && line[k + 1] == l[k + 1];
        assert !ArrowAt(l, k);
      }
    }
  }

  /**
   * A line `left => right` written from a key and a value, either side bare or
   * in double quotes, is read back as exactly that mapping.
   */
  lemma RepoEntryRoundTrip(key: string, value: string, qk: bool, qv: bool)
    requires Bare(key) && Bare(value) && ArrowFree(key)
    ensures RepoEntry(Render(key, qk) + " => " + Render(value, qv)) == Some(Mapping(key, value))
  {
    RenderFacts(key, qk);
    RenderFacts(value, qv);
    ArrowLineEntry(Render(key, qk), Render(value, qv), key, value);
  }

  /** A line `l => v` whose sides unquote to `key` and `value`. */
  lemma ArrowLineEntry(l: string, v: string, key: string, value: string)
    requires l != [] && !IsSpace(l[0]) && !IsSpace(l[|l| - 1]) && ArrowFree(l)
    requires v != [] && !IsSpace(v[0]) && !IsSpace(v[|v| - 1])
    requires forall k | 0 <= k < |l| :: l[k] != '#'
    requires forall k | 0 <= k < |v| :: v[k] != '#'
    requires StripQuotes(l) == key && StripQuotes(v) == value && key != [] && value != []
    ensures RepoEntry(l + " => " + v) == Some(Mapping(key, value))
  {
    var line := l + " => " + v;
    var a := |l| + 1;
    ArrowLineIsClean(l, v);
    ArrowLineSplits(l, v);
    assert line[..a] == l + " ";
    assert line[a + 2..] == " " + v;
    TrimAroundArrow(l, v);
    RepoEntryOfSplit(line, a, key, value);
  }

  /** `RepoEntry` once the arrow and both trimmed, unquoted sides are known. */
  lemma RepoEntryOfSplit(line: string, a: nat, key: string, value: string)
    requires line != [] && CleanLine(line) == line
    requires a + 2 <= |line| && FindArrow(line, 0) == Some(a)
    requires StripQuotes(Trim(line[..a])) == key && StripQuotes(Trim(line[a + 2..])) == value
    requires key != [] && value != []
    ensures RepoEntry(line) == Some(Mapping(key, value))
  {
  }

  /** The spaces around the arrow are trimmed off both sides. */
  lemma TrimAroundArrow(l: string, v: string)
    requires l != [] && !IsSpace(l[0]) && !IsSpace(l[|l| - 1])
    requires v != [] && !IsSpace(v[0]) && !IsSpace(v[|v| - 1])
    ensures Trim(l + " ") == l && Trim(" " + v) == v
  {
    assert IsTrimOf(l + " ", l) by {
      assert (l + " ")[0..0 + |l|] == l && (l + " ")[..0] == [] && (l + " ")[|l|..] == " ";
    }
    TrimUnique(l + " ", l);
    assert IsTrimOf(" " + v, v) by {
      assert (" " + v)[1..1 + |v|] == v && (" " + v)[..1] == " " && (" " + v)[1 + |v|..] == [];
    }
    TrimUnique(" " + v, v);
  }
}

=== FILE: base.dfy ===
/**
 * Option and Result, and the byte-level helpers shared by every component.
 * A byte of a C++ `std::string` is modelled as the `char` with the same code;
 * all tests below look only at ASCII values, as the C locale does, so bytes at
 * or above 0x80 are opaque.
 */
module Base {

  datatype Option<+T> = None | Some(value: T)

  /** A value, or the error a C++ exception would have carried. */
  datatype Result<+T, +E> = Success(value: T) | Failure(error: E)

  /** `std::isspace` in the C locale: space, and `\t` `\n` `\v` `\f` `\r` (9 to 13). */
  predicate IsSpace(c: char) {
    c == ' ' || ('\t' <= c <= '\r')
  }

  predicate IsQuote(c: char) {
    c == '\'' || c == '"'
  }

  predicate IsUpper(c: char) {
    'A' <= c <= 'Z'
  }

  /** `std::tolower` in the C locale: only `A`..`Z` change. */
  function LowerChar(c: char): (r: char)
    ensures !IsUpper(r)
    ensures IsUpper(c) ==> r as int == c as int + 32
    ensures !IsUpper(c) ==> r == c
  {
    if IsUpper(c) then (c as int + 32) as char else c
  }

  /** `ToLower` of src/cmake_fetchcontent.cpp: maps every byte through `LowerChar`. */
  function ToLower(s: string): (r: string)
    ensures |r| == |s|
    ensures forall k | 0 <= k < |s| :: r[k] == LowerChar(s[k])
  {
    if s == [] then [] else [LowerChar(s[0])] + ToLower(s[1..])
  }

  /** Lower-casing a second time changes nothing. */
  lemma ToLowerIdempotent(s: string)
    ensures ToLower(ToLower(s)) == ToLower(s)
  {
  }
}

=== FILE: calls.dfy ===
/**
 * The scanning half of `ReplaceFetchContentRepos` (src/cmake_fetchcontent.cpp):
 * the outer loop that finds `fetchcontent_declare(` calls and their matching
 * `)`, and the inner loop that finds each `git_repository` keyword inside a
 * call and the value token after it. Every value it reaches is recorded as a
 * `Site`, in the order the two loops reach them.
 */
module Calls {
  import opened Base
  import opened Lexer
  import opened Parens

  const DeclareName: string := "fetchcontent_declare"
  const KeywordName: string := "git_repository"

  /** A Word whose text equals `name` ignoring ASCII case (`name` is lower-case). */
  predicate IsNamedWord(t: Token, name: string) {
    t.kind == Word && ToLower(t.text) == name
  }

  /**
   * A value reached by the loops: the call's name Word is at `call`, its `(` at
   * `call + 1` and its matching `)` at `close`; the keyword Word is at `keyword`
   * and the value token at `value`.
   */
  datatype Site = Site(call: nat, close: nat, keyword: nat, value: nat)

  /** The close of the `fetchcontent_declare(` call named at `i`, if there is one and it is matched. */
  function CallEnd(toks: seq<Token>, i: nat): (r: Option<nat>)
    requires i < |toks|
    ensures r.Some? ==> IsNamedWord(toks[i], DeclareName) && i + 1 < |toks| && IsOpen(toks[i + 1])
    ensures r.Some? ==> Matches(toks, i + 1, r.value)
    ensures r.None? && IsNamedWord(toks[i], DeclareName) && i + 1 < |toks| && IsOpen(toks[i + 1]) ==>
      FindMatchingParen(toks, i + 1).None?
  {
    if !IsNamedWord(toks[i], DeclareName) then None
    else if i + 1 >= |toks| || !IsOpen(toks[i + 1]) then None
    else FindMatchingParen(toks, i + 1)
  }

  /** Where the source plans a value: what the two loops and the value test demand of it. */
  predicate ValidSite(toks: seq<Token>, s: Site) {
    && s.call + 1 < s.keyword < s.value < s.close < |toks|
    && CallEnd(toks, s.call) == Some(s.close)
    && IsNamedWord(toks[s.keyword], KeywordName)
    && (forall m | s.keyword < m < s.value :: IsOpen(toks[m]))
    && toks[s.value].kind != Punct
  }

  /** The value tokens of `sites` come strictly in order. */
  predicate ValuesAscend(sites: seq<Site>) {
    forall a, b | 0 <= a < b < |sites| :: sites[a].value < sites[b].value
  }

  /** Every value token of `sites` lies before `bound`. */
  predicate ValuesBelow(sites: seq<Site>, bound: int) {
    forall k | 0 <= k < |sites| :: sites[k].value < bound
  }

  /** Every value token of `sites` lies at or after `bound`. */
  predicate ValuesFrom(sites: seq<Site>, bound: int) {
    forall k | 0 <= k < |sites| :: bound <= sites[k].value
  }

  /** The `while` loop that steps over `(` tokens, stopping at `e`. */
  function SkipOpens(toks: seq<Token>, v: nat, e: nat): (r: nat)
    requires v <= e <= |toks|
    ensures v <= r <= e
    ensures r == e || !IsOpen(toks[r])
    ensures forall m | v <= m < r :: IsOpen(toks[m])
    decreases e - v
  {
    if v < e && IsOpen(toks[v]) then SkipOpens(toks, v + 1, e) else v
  }

  /** One step of the inner loop: the value planned for the keyword candidate at `j`, if any. */
  function ValueAfter(toks: seq<Token>, i: nat, e: nat, j: nat): (r: Option<Site>)
    requires i < |toks| && CallEnd(toks, i) == Some(e) && i + 1 <= j < e
    ensures r.Some? ==> r.value == Site(i, e, j, r.value.value) && ValidSite(toks, r.value)
    ensures r.None? ==> forall v :: !ValidSite(toks, Site(i, e, j, v))
  {
    if !IsNamedWord(toks[j], KeywordName) then None
    else
      var v := SkipOpens(toks, j + 1, e);
      if v >= e || toks[v].kind == Punct then None
      else Some(Site(i, e, j, v))
  }

  /** The inner loop, over `j` from the given index up to the call's close `e`. */
  function CallSites(toks: seq<Token>, i: nat, e: nat, j: nat): (r: seq<Site>)
    requires i < |toks| && CallEnd(toks, i) == Some(e) && i + 1 <= j <= e
    ensures |r| <= e - j
    decreases e - j
  {
    if j == e then []
    else
      var rest := CallSites(toks, i, e, j + 1);
      match ValueAfter(toks, i, e, j)
      case Some(s) => [s] + rest
      case None => rest
  }

  /** The outer loop, over call names from index `i` on. It does not skip past a call it has handled. */
  function SitesFrom(toks: seq<Token>, i: nat): seq<Site>
    requires i <= |toks|
    decreases |toks| - i
  {
    if i == |toks| then []
    else
      var rest := SitesFrom(toks, i + 1);
      match CallEnd(toks, i)
      case Some(e) =>
        assert toks[i + 1].kind == Punct;
        CallSites(toks, i, e, i + 1) + rest
      case None => rest
  }

  /** At a matched call the outer loop takes the call's sites, then moves on to the next token. */
  lemma OuterStepAtCall(toks: seq<Token>, i: nat, e: nat)
    requires i < |toks| && CallEnd(toks, i) == Some(e)
    ensures toks[i + 1].kind == Punct
    ensures SitesFrom(toks, i) == CallSites(toks, i, e, i + 1) + SitesFrom(toks, i + 1)
  {
  }

  /** Anywhere else the outer loop moves on by one token. */
  lemma OuterStepElsewhere(toks: seq<Token>, i: nat)
    requires i < |toks| && CallEnd(toks, i).None?
    ensures SitesFrom(toks, i) == SitesFrom(toks, i + 1)
  {
  }

  /** The outer loop keeps every site it finds from the next token on. */
  lemma KeptFromNext(toks: seq<Token>, i: nat, s: Site)
    requires i < |toks| && s in SitesFrom(toks, i + 1)
    ensures s in SitesFrom(toks, i)
  {
    match CallEnd(toks, i)
    case Some(e) => OuterStepAtCall(toks, i, e);
    case None => OuterStepElsewhere(toks, i);
  }

  /** One step of the inner loop. */
  lemma InnerStep(toks: seq<Token>, i: nat, e: nat, j: nat)
    requires i < |toks| && CallEnd(toks, i) == Some(e) && i + 1 <= j < e
    ensures ValueAfter(toks, i, e, j).Some? ==>
      CallSites(toks, i, e, j) == [ValueAfter(toks, i, e, j).value] + CallSites(toks, i, e, j + 1)
    ensures ValueAfter(toks, i, e, j).None? ==> CallSites(toks, i, e, j) == CallSites(toks, i, e, j + 1)
  {
  }

  /** The inner loop from `j` on reaches valid sites of call `i`, by ascending keyword from `j` on. */
  lemma CallSitesValid(toks: seq<Token>, i: nat, e: nat, j: nat)
    requires i < |toks| && CallEnd(toks, i) == Some(e) && i + 1 <= j <= e
    ensures forall k | 0 <= k < |CallSites(toks, i, e, j)| ::
      ValidSite(toks, CallSites(toks, i, e, j)[k]) && CallSites(toks, i, e, j)[k].call == i && j <= CallSites(toks, i, e, j)[k].keyword
    ensures forall a, b | 0 <= a < b < |CallSites(toks, i, e, j)| ::
      CallSites(toks, i, e, j)[a].keyword < CallSites(toks, i, e, j)[b].keyword
  {
    CallSitesAreValid(toks, i, e, j);
    CallSitesByKeyword(toks, i, e, j);
  }

  lemma {:induction false} CallSitesAreValid(toks: seq<Token>, i: nat, e: nat, j: nat)
    requires i < |toks| && CallEnd(toks, i) == Some(e) && i + 1 <= j <= e
    ensures forall k | 0 <= k < |CallSites(toks, i, e, j)| ::
      ValidSite(toks, CallSites(toks, i, e, j)[k]) && CallSites(toks, i, e, j)[k].call == i && j <= CallSites(toks, i, e, j)[k].keyword
    decreases e - j
  {
    if j < e {
      CallSitesAreValid(toks, i, e, j + 1);
      InnerStep(toks, i, e, j);
    }
  }

  lemma {:induction false} CallSitesByKeyword(toks: seq<Token>, i: nat, e: nat, j: nat)
    requires i < |toks| && CallEnd(toks, i) == Some(e) && i + 1 <= j <= e
    ensures forall a, b | 0 <= a < b < |CallSites(toks, i, e, j)| ::
      CallSites(toks, i, e, j)[a].keyword < CallSites(toks, i, e, j)[b].keyword
    decreases e - j
  {
    if j < e {
      CallSitesByKeyword(toks, i, e, j + 1);
      CallSitesAreValid(toks, i, e, j + 1);
      InnerStep(toks, i, e, j);
    }
  }

  /** Every site the outer loop reaches from `i` on is a valid site whose call is at or after `i`. */
  lemma {:induction false} SitesFromValid(toks: seq<Token>, i: nat)
    requires i <= |toks|
    ensures forall k | 0 <= k < |SitesFrom(toks, i)| :: ValidSite(toks, SitesFrom(toks, i)[k]) && i <= SitesFrom(toks, i)[k].call
    decreases |toks| - i
  {
    if i < |toks| {
      SitesFromValid(toks, i + 1);
      match CallEnd(toks, i)
      case Some(e) =>
        CallSitesValid(toks, i, e, i + 1);
        OuterStepAtCall(toks, i, e);
      case None => OuterStepElsewhere(toks, i);
    }
  }

  /** The outer loop reaches sites by call, and within a call by keyword. */
  lemma {:induction false} SitesFromOrdered(toks: seq<Token>, i: nat)
    requires i <= |toks|
    ensures forall a, b | 0 <= a < b < |SitesFrom(toks, i)| ::
      SitesFrom(toks, i)[a].call < SitesFrom(toks, i)[b].call ||
      (SitesFrom(toks, i)[a].call == SitesFrom(toks, i)[b].call && SitesFrom(toks, i)[a].keyword < SitesFrom(toks, i)[b].keyword)
    decreases |toks| - i
  {
    if i < |toks| {
      SitesFromOrdered(toks, i + 1);
      SitesFromValid(toks, i + 1);
      match CallEnd(toks, i)
      case Some(e) =>
        CallSitesValid(toks, i, e, i + 1);
        OuterStepAtCall(toks, i, e);
      case None => OuterStepElsewhere(toks, i);
    }
  }

  /** Every value the source visits, in visiting order. */
  function Sites(toks: seq<Token>): (r: seq<Site>)
    ensures forall k | 0 <= k < |r| :: ValidSite(toks, r[k])
  {
    SitesFromValid(toks, 0);
    SitesFrom(toks, 0)
  }

  lemma {:induction false} CallSitesComplete(toks: seq<Token>, i: nat, e: nat, j: nat, s: Site)
    requires i < |toks| && CallEnd(toks, i) == Some(e) && i + 1 <= j <= e
    requires ValidSite(toks, s) && s.call == i && j <= s.keyword
    ensures s in CallSites(toks, i, e, j)
    decreases e - j
  {
    InnerStep(toks, i, e, j);
    if s.keyword > j {
      CallSitesComplete(toks, i, e, j + 1, s);
    } else {
      assert s == Site(i, e, j, s.value);
      var v := ValueAfter(toks, i, e, j);
      assert v.Some?;
      SiteValuesFollowKeywords(toks, s, v.value);
    }
  }

  /** Scanning from an earlier token finds every site found from a later one. */
  lemma {:induction false} SitesFromGrow(toks: seq<Token>, i: nat, j: nat, s: Site)
    requires i <= j <= |toks| && s in SitesFrom(toks, j)
    ensures s in SitesFrom(toks, i)
    decreases j - i
  {
    if i < j {
      SitesFromGrow(toks, i + 1, j, s);
      KeptFromNext(toks, i, s);
    }
  }

  lemma SitesFromComplete(toks: seq<Token>, i: nat, s: Site)
    requires i <= |toks| && ValidSite(toks, s) && i <= s.call
    ensures s in SitesFrom(toks, i)
  {
    CallSitesComplete(toks, s.call, s.close, s.call + 1, s);
    OuterStepAtCall(toks, s.call, s.close);
    SitesFromGrow(toks, i, s.call, s);
  }

  /** The loops visit exactly the valid sites: none is missed and nothing else is visited. */
  lemma SitesAreValidSites(toks: seq<Token>)
    ensures forall s :: s in Sites(toks) <==> ValidSite(toks, s)
  {
    forall s | ValidSite(toks, s)
      ensures s in Sites(toks)
    {
      SitesFromComplete(toks, 0, s);
    }
  }

  /** Within the token sequence, a later keyword always has a later value. */
  lemma SiteValuesFollowKeywords(toks: seq<Token>, s1: Site, s2: Site)
    requires ValidSite(toks, s1) && ValidSite(toks, s2) && s1.keyword <= s2.keyword
    ensures s1.keyword < s2.keyword ==> s1.value < s2.value
    ensures s1.keyword == s2.keyword ==> s1.value == s2.value
  {
    assert !IsOpen(toks[s2.keyword]) && !IsOpen(toks[s1.value]) && !IsOpen(toks[s2.value]);
  }

  /**
   * A matched call nested inside another lies wholly inside it, so each of its
   * values is visited a second time, as part of the enclosing call.
   */
  lemma NestedSitesRevisited(toks: seq<Token>, s: Site, i: nat, e: nat)
    requires ValidSite(toks, s)
    requires i < s.call < e < |toks| && CallEnd(toks, i) == Some(e)
    ensures s.close < e
    ensures ValidSite(toks, Site(i, e, s.keyword, s.value))
    ensures s in Sites(toks) && Site(i, e, s.keyword, s.value) in Sites(toks)
  {
    NestedCallInside(toks, s, i, e);
    SitesFromComplete(toks, 0, s);
    SitesFromComplete(toks, 0, Site(i, e, s.keyword, s.value));
  }

  /** A matched call named inside another closes before it does. */
  lemma NestedCallInside(toks: seq<Token>, s: Site, i: nat, e: nat)
    requires ValidSite(toks, s)
    requires i < s.call < e < |toks| && CallEnd(toks, i) == Some(e)
    ensures s.close < e
    ensures ValidSite(toks, Site(i, e, s.keyword, s.value))
  {
    assert IsOpen(toks[s.call + 1]) && IsClose(toks[e]);
    StaysOpenAt(toks, i + 1, e, s.call + 1);
    DepthSplit(toks, i + 1, s.call + 1, e + 1);
    if e < s.close {
      StaysOpenAt(toks, s.call + 1, s.close, e + 1);
    }
  }

  /** No matched call contains the name of another matched call. */
  predicate NoNestedCalls(toks: seq<Token>) {
    forall i, i2 | 0 <= i < i2 < |toks| && CallEnd(toks, i).Some? && i2 < CallEnd(toks, i).value ::
      CallEnd(toks, i2).None?
  }

  /** Without nesting, the visited values are strictly ascending, hence all distinct. */
  lemma SitesAscendingWhenNotNested(toks: seq<Token>)
    requires NoNestedCalls(toks)
    ensures forall a, b | 0 <= a < b < |Sites(toks)| :: Sites(toks)[a].value < Sites(toks)[b].value
  {
    var r := Sites(toks);
    SitesFromOrdered(toks, 0);
    forall a, b | 0 <= a < b < |r|
      ensures r[a].value < r[b].value
    {
      var s1, s2 := r[a], r[b];
      if s1.call == s2.call {
        SiteValuesFollowKeywords(toks, s1, s2);
      } else {
        assert CallEnd(toks, s2.call).Some? && toks[s2.call].kind == Word && IsClose(toks[s1.close]);
        assert s1.close < s2.call;
      }
    }
  }
}

=== FILE: fetchcontent.dfy ===
/**
 * `ReplaceFetchContentRepos` of src/cmake_fetchcontent.cpp and the
 * `RepoReplaceResult` record of include/cmake_fetchcontent.h: lex, find the
 * values, plan the edits and logs, then splice back to front.
 */
module FetchContent {
  import opened Base
  import opened Lexer
  import opened Parens
  import opened Calls
  import opened Unique
  import opened Splice
  import opened Planner

  datatype RepoReplaceResult = RepoReplaceResult(output: string, replaced: seq<string>, missing: seq<string>)

  /** The plan the two loops build for `content`. */
  function PlanOf(content: string, m: map<string, string>): (p: Plan)
    ensures SpansOk(p.edits)
  {
    var toks := Tokenize(content);
    var sites := Sites(toks);
    TokenSpans(content);
    PlanSpansOk(toks, sites, m);
    PlanSites(toks, sites, m)
  }

  lemma TokenSpans(content: string)
    ensures forall k | 0 <= k < |Tokenize(content)| :: Tokenize(content)[k].start <= Tokenize(content)[k].end
  {
    var toks := Tokenize(content);
    forall k | 0 <= k < |toks|
      ensures toks[k].start <= toks[k].end
    {
      assert TokenOk(content, toks[k]);
    }
  }

  /** Each planned edit replaces one value token of `content` by its mapped text, as `EditFaithful` details. */
  lemma PlanOfFaithful(content: string, m: map<string, string>)
    ensures forall e | e in PlanOf(content, m).edits :: EditFaithful(content, m, e)
  {
    var toks := Tokenize(content);
    PlanEditsFaithful(content, toks, Sites(toks), m);
  }

  /** `e` is the edit of a value token at a valid site of `toks` whose text is in the map. */
  ghost predicate SiteEdit(toks: seq<Token>, m: map<string, string>, e: Edit) {
    exists s :: ValidSite(toks, s) && toks[s.value].text in m && e == TokenEdit(toks[s.value], m)
  }

  /** Each edit planned over valid sites is the edit of one of them. */
  lemma EditsAtValidSites(toks: seq<Token>, sites: seq<Site>, m: map<string, string>)
    requires SitesIn(toks, sites)
    requires forall k | 0 <= k < |sites| :: ValidSite(toks, sites[k])
    ensures forall e | e in PlanSites(toks, sites, m).edits :: SiteEdit(toks, m, e)
  {
    PlanEditsAreHits(toks, sites, m);
    var edits, h := PlanSites(toks, sites, m).edits, HitSites(toks, sites, m);
    forall e | e in edits
      ensures SiteEdit(toks, m, e)
    {
      var a :| 0 <= a < |edits| && edits[a] == e;
      assert ValidSite(toks, sites[h[a]]) && ValueText(toks, sites, h[a]) in m;
    }
  }

  /**
   * The planned edits are exactly the edits of the valid sites whose value
   * text is in the map (in site order, as `PlanEditsAreHits` states).
   */
  lemma PlanOfEditsAreSiteEdits(content: string, m: map<string, string>)
    ensures forall e :: e in PlanOf(content, m).edits <==> SiteEdit(Tokenize(content), m, e)
  {
    var toks := Tokenize(content);
    var sites := Sites(toks);
    SitesAreValidSites(toks);
    EditsAtValidSites(toks, sites, m);
    forall e | SiteEdit(toks, m, e)
      ensures e in PlanOf(content, m).edits
    {
      var s :| ValidSite(toks, s) && toks[s.value].text in m && e == TokenEdit(toks[s.value], m);
      EditOfValidSite(toks, m, s);
    }
  }

  /** A valid site whose value text is in the map has its edit in the plan. */
  lemma EditOfValidSite(toks: seq<Token>, m: map<string, string>, s: Site)
    requires ValidSite(toks, s) && toks[s.value].text in m
    ensures TokenEdit(toks[s.value], m) in PlanSites(toks, Sites(toks), m).edits
  {
    var sites := Sites(toks);
    SitesAreValidSites(toks);
    var k := IndexOf(sites, s);
    HitSitesComplete(toks, sites, m);
    PlanEditsAreHits(toks, sites, m);
    var h := HitSites(toks, sites, m);
    assert ValueText(toks, sites, k) in m;
    var a :| 0 <= a < |h| && h[a] == k;
    assert PlanSites(toks, sites, m).edits[a] == TokenEdit(toks[s.value], m);
  }

  /** Some value token the loops reach in `toks` has text `x`. */
  ghost predicate SeenIn(toks: seq<Token>, x: string) {
    exists s :: ValidSite(toks, s) && toks[s.value].text == x
  }

  /** Some value token the loops reach in `content` has text `x`. */
  ghost predicate ValueSeen(content: string, x: string) {
    SeenIn(Tokenize(content), x)
  }

  /**
   * `ReplaceFetchContentRepos`. `Failure` stands for the `std::out_of_range`
   * that the splice loop throws when an edit starts past the end of the text as
   * it stands, which nested calls can cause.
   */
  function ReplaceFetchContentRepos(content: string, m: map<string, string>): (r: Result<RepoReplaceResult, SpliceError>)
    ensures r.Success? ==> NoDups(r.value.missing) && NoDups(r.value.replaced)
    ensures r.Success? ==> forall x | x in r.value.missing :: x !in m
  {
    var plan := PlanOf(content, m);
    match ApplyReverse(content, plan.edits)
    case Success(out) => Success(RepoReplaceResult(out, plan.replaced, plan.missing))
    case Failure(err) => Failure(err)
  }

  /** The visited value texts are exactly the texts of the valid sites. */
  lemma SiteTextsAreSeen(toks: seq<Token>)
    ensures forall x :: SeenIn(toks, x) <==>
      exists k | 0 <= k < |Sites(toks)| :: ValueText(toks, Sites(toks), k) == x
  {
    forall x | SeenIn(toks, x)
      ensures exists k | 0 <= k < |Sites(toks)| :: ValueText(toks, Sites(toks), k) == x
    {
      SeenTextVisited(toks, x);
    }
  }

  /** A text seen at a valid site is the text of some visited site. */
  lemma SeenTextVisited(toks: seq<Token>, x: string)
    requires SeenIn(toks, x)
    ensures exists k | 0 <= k < |Sites(toks)| :: ValueText(toks, Sites(toks), k) == x
  {
    var s :| ValidSite(toks, s) && toks[s.value].text == x;
    SitesFromComplete(toks, 0, s);
    var sites := Sites(toks);
    var k :| 0 <= k < |sites| && sites[k] == s;
    assert ValueText(toks, sites, k) == x;
  }

  /** The planned logs in terms of the values the loops reach. */
  lemma PlanLogsSeen(toks: seq<Token>, m: map<string, string>)
    ensures forall x :: x in PlanSites(toks, Sites(toks), m).missing <==> x !in m && SeenIn(toks, x)
    ensures forall y :: y in PlanSites(toks, Sites(toks), m).replaced <==>
      exists x :: SeenIn(toks, x) && x in m && y == x + Arrow + m[x]
  {
    var sites := Sites(toks);
    PlanLogsMembership(toks, sites, m);
    SiteTextsAreSeen(toks);
    forall y | (exists x :: SeenIn(toks, x) && x in m && y == x + Arrow + m[x])
      ensures y in PlanSites(toks, sites, m).replaced
    {
      var x :| SeenIn(toks, x) && x in m && y == x + Arrow + m[x];
      var k :| 0 <= k < |sites| && ValueText(toks, sites, k) == x;
    }
  }

  /**
   * The logs of a successful rewrite: `missing` holds each value text the loops
   * reach that is not in the map, `replaced` holds `text => mapped` for each
   * one that is; neither holds anything else or repeats an entry.
   */
  lemma RewriteLogs(content: string, m: map<string, string>)
    requires ReplaceFetchContentRepos(content, m).Success?
    ensures forall x :: x in ReplaceFetchContentRepos(content, m).value.missing <==> x !in m && ValueSeen(content, x)
    ensures forall y :: y in ReplaceFetchContentRepos(content, m).value.replaced <==>
      exists x :: ValueSeen(content, x) && x in m && y == x + Arrow + m[x]
  {
    var toks := Tokenize(content);
    PlanLogsSeen(toks, m);
    var r := ReplaceFetchContentRepos(content, m).value;
    assert r.missing == PlanSites(toks, Sites(toks), m).missing;
    assert r.replaced == PlanSites(toks, Sites(toks), m).replaced;
  }

  /**
   * With no value in the map (an empty map, say) the output is the input,
   * byte for byte, nothing is logged as replaced, and every value is logged as
   * missing in order of first occurrence.
   */
  lemma RewriteWithoutHits(content: string, m: map<string, string>)
    requires forall x | ValueSeen(content, x) :: x !in m
    ensures ReplaceFetchContentRepos(content, m) ==
      Success(RepoReplaceResult(content, [], UniquePreserveOrder(MissedTexts(Tokenize(content), Sites(Tokenize(content)), m))))
  {
    var toks := Tokenize(content);
    var sites := Sites(toks);
    forall k | 0 <= k < |sites|
      ensures ValueText(toks, sites, k) !in m
    {
      assert ValidSite(toks, sites[k]);
    }
    PlanWithoutHits(toks, sites, m);
    PlanLogsAreUnique(toks, sites, m);
  }

  /** When no matched call contains another, the planned edits are in order and do not overlap. */
  lemma PlanAscendingWhenNotNested(content: string, m: map<string, string>)
    requires NoNestedCalls(Tokenize(content))
    ensures EditsAscending(PlanOf(content, m).edits, |content|)
  {
    var toks := Tokenize(content);
    SitesAscendingWhenNotNested(toks);
    PlanEditsAscending(content, toks, Sites(toks), m);
  }

  /**
   * When no matched call contains another, the rewrite never throws. The output
   * is the original text with each planned span replaced in place. Its length
   * changes by exactly the sum of the per-edit deltas, and every byte outside
   * the planned spans keeps its value, shifted by the edits before it.
   */
  lemma RewriteWhenNotNested(content: string, m: map<string, string>)
    requires NoNestedCalls(Tokenize(content))
    ensures EditsAscending(PlanOf(content, m).edits, |content|)
    ensures ReplaceFetchContentRepos(content, m).Success?
    ensures SplicedInPlace(content, PlanOf(content, m).edits, ReplaceFetchContentRepos(content, m).value.output)
  {
    PlanAscendingWhenNotNested(content, m);
    RewriteOrderedPlan(content, m);
  }

  /**
   * With a matched call inside another, a value of the inner call whose text is
   * in the map is planned twice, once per enclosing call. Two edits then cover
   * the same span, so the plan is not an ordered, non-overlapping one and the
   * back-to-front splice rewrites text it has already rewritten.
   */
  lemma NestedCallsOverlap(content: string, m: map<string, string>, s: Site, i: nat, e: nat)
    requires ValidSite(Tokenize(content), s)
    requires i < s.call < e < |Tokenize(content)| && CallEnd(Tokenize(content), i) == Some(e)
    requires Tokenize(content)[s.value].text in m
    ensures !EditsAscending(PlanOf(content, m).edits, |content|)
  {
    var toks := Tokenize(content);
    assert TokenOk(content, toks[s.value]);
    NestedTokensOverlap(|content|, toks, m, s, i, e);
  }

  /** `NestedCallsOverlap` over the tokens. */
  lemma NestedTokensOverlap(n: nat, toks: seq<Token>, m: map<string, string>, s: Site, i: nat, e: nat)
    requires ValidSite(toks, s) && toks[s.value].start < toks[s.value].end
    requires i < s.call < e < |toks| && CallEnd(toks, i) == Some(e)
    requires toks[s.value].text in m
    ensures !EditsAscending(PlanSites(toks, Sites(toks), m).edits, n)
  {
    var sites := Sites(toks);
    NestedSitesRevisited(toks, s, i, e);
    var k1 := IndexOf(sites, s);
    var k2 := IndexOf(sites, Site(i, e, s.keyword, s.value));
    assert ValueText(toks, sites, k1) == toks[s.value].text;
    RevisitedTokenOverlaps(n, toks, sites, m, k1, k2);
  }

  /**
   * What the reverse splice makes of the two copies of one edit that a nested
   * call plans (see `NestedCallsOverlap`): the second copy rewrites the first
   * one's output at the original offsets, leaving `bbbbbbb` instead of `bbbb`.
   */
  lemma RepeatedEditExample()
    ensures ApplyReverse("(x a)", [Edit(3, 4, "bbbb", "a", "bbbb"), Edit(3, 4, "bbbb", "a", "bbbb")])
      == Success("(x bbbbbbb)")
  {
    var s, s' := "(x a)", "(x bbbb)";
    assert s[..3] == "(x " && s[4..] == ")";
    assert "(x " + "bbbb" + ")" == s';
    assert StringReplace(s, 3, 1, "bbbb") == Success(s');
    assert s'[..3] == "(x " && s'[4..] == "bbb)";
    assert "(x " + "bbbb" + "bbb)" == "(x bbbbbbb)";
    assert StringReplace(s', 3, 1, "bbbb") == Success("(x bbbbbbb)");
  }

  /**
   * A value of the outer call after a nested one, `z`, sits between two copies
   * of the nested value's edit. Once the last copy has shortened the text, the
   * edit of `z` starts past its end and the splice throws.
   */
  lemma StaleOffsetExample()
    ensures ApplyReverse("(x aaaaaaaaaa z)",
      [Edit(3, 13, "b", "aaaaaaaaaa", "b"), Edit(14, 15, "q", "z", "q"), Edit(3, 13, "b", "aaaaaaaaaa", "b")])
      == Failure(OutOfRange(14, 7))
  {
    var s := "(x aaaaaaaaaa z)";
    assert s[..3] == "(x " && s[13..] == " z)";
    assert "(x " + "b" + " z)" == "(x b z)";
    assert StringReplace(s, 3, 10, "b") == Success("(x b z)");
  }

  lemma IndexOf(sites: seq<Site>, x: Site) returns (k: nat)
    requires x in sites
    ensures k < |sites| && sites[k] == x
  {
    k :| 0 <= k < |sites| && sites[k] == x;
  }

  /** An ordered, non-overlapping plan is spliced without error into the front-to-back assembly. */
  lemma RewriteOrderedPlan(content: string, m: map<string, string>)
    requires EditsAscending(PlanOf(content, m).edits, |content|)
    ensures ReplaceFetchContentRepos(content, m).Success?
    ensures SplicedInPlace(content, PlanOf(content, m).edits, ReplaceFetchContentRepos(content, m).value.output)
  {
    var plan := PlanOf(content, m);
    SpliceOrdered(content, plan.edits);
    var out := ApplyReverse(content, plan.edits).value;
    assert ReplaceFetchContentRepos(content, m) == Success(RepoReplaceResult(out, plan.replaced, plan.missing));
  }

  /**
   * A variant of the outer loop that, after a matched call, resumes past the
   * call's `)`, so only top-level calls are scanned.
   */
  function TopLevelSitesFrom(toks: seq<Token>, i: nat): seq<Site>
    requires i <= |toks|
    decreases |toks| - i
  {
    if i == |toks| then []
    else
      match CallEnd(toks, i)
      case Some(e) =>
        assert toks[i + 1].kind == Punct;
        CallSites(toks, i, e, i + 1) + TopLevelSitesFrom(toks, e + 1)
      case None => TopLevelSitesFrom(toks, i + 1)
  }

  /** Every site the top-level scan reaches from `i` on is a valid site whose call is at or after `i`. */
  lemma {:induction false} TopLevelValid(toks: seq<Token>, i: nat)
    requires i <= |toks|
    ensures forall k | 0 <= k < |TopLevelSitesFrom(toks, i)| ::
      ValidSite(toks, TopLevelSitesFrom(toks, i)[k]) && i <= TopLevelSitesFrom(toks, i)[k].call
    decreases |toks| - i
  {
    if i < |toks| {
      match CallEnd(toks, i)
      case Some(e) =>
        TopLevelValid(toks, e + 1);
        CallSitesValid(toks, i, e, i + 1);
        TopLevelStepAtCall(toks, i, e);
      case None =>
        TopLevelValid(toks, i + 1);
        TopLevelStepElsewhere(toks, i);
    }
  }

  /** The values a call's inner loop reaches are strictly ascending, and all lie before the call's close. */
  lemma CallValuesAscend(toks: seq<Token>, i: nat, e: nat)
    requires i < |toks| && CallEnd(toks, i) == Some(e)
    ensures ValuesAscend(CallSites(toks, i, e, i + 1))
    ensures ValuesBelow(CallSites(toks, i, e, i + 1), e)
  {
    var here := CallSites(toks, i, e, i + 1);
    CallSitesValid(toks, i, e, i + 1);
    forall a, b | 0 <= a < b < |here|
      ensures here[a].value < here[b].value
    {
      SiteValuesFollowKeywords(toks, here[a], here[b]);
    }
  }

  /** Every value the top-level scan reaches from `i` on lies at or after `i`. */
  lemma TopLevelValuesAfter(toks: seq<Token>, i: nat)
    requires i <= |toks|
    ensures ValuesFrom(TopLevelSitesFrom(toks, i), i)
  {
    TopLevelValid(toks, i);
  }

  /** Two ascending runs of values, the first wholly below `lo` and the second wholly from `hi` on, ascend together. */
  lemma AscendConcat(a: seq<Site>, b: seq<Site>, lo: int, hi: int)
    requires ValuesAscend(a) && ValuesAscend(b) && lo <= hi
    requires ValuesBelow(a, lo) && ValuesFrom(b, hi)
    ensures ValuesAscend(a + b)
  {
    var r := a + b;
    forall x, y | 0 <= x < y < |r|
      ensures r[x].value < r[y].value
    {
      if y < |a| {
        assert r[x] == a[x] && r[y] == a[y];
      } else if x < |a| {
        assert r[x] == a[x] && r[y] == b[y - |a|];
      } else {
        assert r[x] == b[x - |a|] && r[y] == b[y - |a|];
      }
    }
  }

  /** The values the top-level scan reaches are strictly ascending. */
  lemma {:induction false} TopLevelAscending(toks: seq<Token>, i: nat)
    requires i <= |toks|
    ensures ValuesAscend(TopLevelSitesFrom(toks, i))
    decreases |toks| - i
  {
    if i < |toks| {
      match CallEnd(toks, i)
      case Some(e) =>
        TopLevelAscending(toks, e + 1);
        AscendAtCall(toks, i, e);
      case None =>
        TopLevelAscending(toks, i + 1);
        TopLevelStepElsewhere(toks, i);
    }
  }

  /** A call's own values come before those the top-level scan reaches after its close. */
  lemma AscendAtCall(toks: seq<Token>, i: nat, e: nat)
    requires i < |toks| && CallEnd(toks, i) == Some(e)
    requires ValuesAscend(TopLevelSitesFrom(toks, e + 1))
    ensures ValuesAscend(TopLevelSitesFrom(toks, i))
  {
    TopLevelValuesAfter(toks, e + 1);
    CallValuesAscend(toks, i, e);
    TopLevelStepAtCall(toks, i, e);
    AscendConcat(CallSites(toks, i, e, i + 1), TopLevelSitesFrom(toks, e + 1), e, e + 1);
  }

  /** Without nesting, scanning top-level calls only reaches the same values in the same order. */
  lemma {:induction false} TopLevelAgreesWhenNotNested(toks: seq<Token>, i: nat)
    requires i <= |toks| && NoNestedCalls(toks)
    ensures TopLevelSitesFrom(toks, i) == SitesFrom(toks, i)
    decreases |toks| - i
  {
    if i < |toks| {
      match CallEnd(toks, i)
      case Some(e) =>
        TopLevelAgreesWhenNotNested(toks, e + 1);
        NoCallsInside(toks, i, e);
        AgreeAtCall(toks, i, e);
      case None =>
        TopLevelAgreesWhenNotNested(toks, i + 1);
        ScanStepElsewhere(toks, i);
    }
  }

  /** Without nesting, no matched call is named inside a matched call, nor at its close. */
  lemma NoCallsInside(toks: seq<Token>, i: nat, e: nat)
    requires NoNestedCalls(toks) && i < |toks| && CallEnd(toks, i) == Some(e)
    ensures e < |toks| && forall j | i + 1 <= j < e + 1 :: CallEnd(toks, j).None?
  {
    assert IsClose(toks[e]);
  }

  /** The two loops agree from a call on when they agree after it and nothing inside it names a call. */
  lemma AgreeAtCall(toks: seq<Token>, i: nat, e: nat)
    requires i < |toks| && CallEnd(toks, i) == Some(e) && e < |toks|
    requires forall j | i + 1 <= j < e + 1 :: CallEnd(toks, j).None?
    requires TopLevelSitesFrom(toks, e + 1) == SitesFrom(toks, e + 1)
    ensures TopLevelSitesFrom(toks, i) == SitesFrom(toks, i)
  {
    SitesSkipNoCalls(toks, i + 1, e + 1);
    AgreeAfterSkip(toks, i, e);
  }

  /** The outer loop, resuming after the name, reaches what the top-level one does after the close. */
  lemma AgreeAfterSkip(toks: seq<Token>, i: nat, e: nat)
    requires i < |toks| && CallEnd(toks, i) == Some(e) && e < |toks|
    requires SitesFrom(toks, i + 1) == SitesFrom(toks, e + 1)
    requires TopLevelSitesFrom(toks, e + 1) == SitesFrom(toks, e + 1)
    ensures TopLevelSitesFrom(toks, i) == SitesFrom(toks, i)
  {
    ScanStepAtCall(toks, i, e);
  }

  /** At a matched call both loops take its sites; the outer one resumes after the name, the top-level one after the call. */
  lemma ScanStepAtCall(toks: seq<Token>, i: nat, e: nat)
    requires i < |toks| && CallEnd(toks, i) == Some(e)
    ensures toks[i + 1].kind == Punct
    ensures SitesFrom(toks, i) == CallSites(toks, i, e, i + 1) + SitesFrom(toks, i + 1)
    ensures TopLevelSitesFrom(toks, i) == CallSites(toks, i, e, i + 1) + TopLevelSitesFrom(toks, e + 1)
  {
    OuterStepAtCall(toks, i, e);
    TopLevelStepAtCall(toks, i, e);
  }

  lemma TopLevelStepAtCall(toks: seq<Token>, i: nat, e: nat)
    requires i < |toks| && CallEnd(toks, i) == Some(e)
    ensures toks[i + 1].kind == Punct
    ensures TopLevelSitesFrom(toks, i) == CallSites(toks, i, e, i + 1) + TopLevelSitesFrom(toks, e + 1)
  {
  }

  lemma TopLevelStepElsewhere(toks: seq<Token>, i: nat)
    requires i < |toks| && CallEnd(toks, i).None?
    ensures TopLevelSitesFrom(toks, i) == TopLevelSitesFrom(toks, i + 1)
  {
  }

  /** Anywhere else both loops move on by one token. */
  lemma ScanStepElsewhere(toks: seq<Token>, i: nat)
    requires i < |toks| && CallEnd(toks, i).None?
    ensures SitesFrom(toks, i) == SitesFrom(toks, i + 1)
    ensures TopLevelSitesFrom(toks, i) == TopLevelSitesFrom(toks, i + 1)
  {
    OuterStepElsewhere(toks, i);
    TopLevelStepElsewhere(toks, i);
  }

  /** The outer loop adds nothing over a stretch that names no matched call. */
  lemma {:induction false} SitesSkipNoCalls(toks: seq<Token>, j: nat, k: nat)
    requires j <= k <= |toks|
    requires forall i | j <= i < k :: CallEnd(toks, i).None?
    ensures SitesFrom(toks, j) == SitesFrom(toks, k)
    decreases k - j
  {
    if j < k {
      OuterStepElsewhere(toks, j);
      SitesSkipNoCalls(toks, j + 1, k);
    }
  }

  /** The plan when only top-level calls are scanned. */
  function TopLevelPlanOf(content: string, m: map<string, string>): (p: Plan)
    ensures EditsAscending(p.edits, |content|)
  {
    var toks := Tokenize(content);
    var sites := TopLevelSitesFrom(toks, 0);
    TopLevelValid(toks, 0);
    TopLevelAscending(toks, 0);
    PlanEditsAscending(content, toks, sites, m);
    PlanSites(toks, sites, m)
  }

  lemma TopLevelPlanFaithful(content: string, m: map<string, string>)
    ensures forall e | e in TopLevelPlanOf(content, m).edits :: EditFaithful(content, m, e)
  {
    var toks := Tokenize(content);
    TopLevelValid(toks, 0);
    PlanEditsFaithful(content, toks, TopLevelSitesFrom(toks, 0), m);
  }

  /** Each top-level edit is the edit of a valid site whose value text is in the map. */
  lemma TopLevelEditsAtSites(content: string, m: map<string, string>)
    ensures forall e | e in TopLevelPlanOf(content, m).edits :: SiteEdit(Tokenize(content), m, e)
  {
    var toks := Tokenize(content);
    TopLevelValid(toks, 0);
    EditsAtValidSites(toks, TopLevelSitesFrom(toks, 0), m);
  }

  /**
   * The rewrite with top-level scanning only. It cannot throw, and its output
   * is the content with each planned span replaced in place.
   */
  function ReplaceTopLevelRepos(content: string, m: map<string, string>): (r: RepoReplaceResult)
    ensures SplicedInPlace(content, TopLevelPlanOf(content, m).edits, r.output)
    ensures NoDups(r.missing) && NoDups(r.replaced)
  {
    var plan := TopLevelPlanOf(content, m);
    SpliceOrdered(content, plan.edits);
    RepoReplaceResult(ApplyReverse(content, plan.edits).value, plan.replaced, plan.missing)
  }

  /** On input without nested calls the top-level rewrite gives what the source computes. */
  lemma TopLevelAgreesWithSource(content: string, m: map<string, string>)
    requires NoNestedCalls(Tokenize(content))
    ensures ReplaceFetchContentRepos(content, m) == Success(ReplaceTopLevelRepos(content, m))
  {
    var toks := Tokenize(content);
    TopLevelAgreesWhenNotNested(toks, 0);
    assert TopLevelSitesFrom(toks, 0) == Sites(toks);
    assert TopLevelPlanOf(content, m) == PlanOf(content, m);
    RewriteWhenNotNested(content, m);
  }
}

=== FILE: json.dfy ===
/**
 * `JsonEscape` and `JsonArray` of src/main.cpp, which write the `--json`
 * reports, together with a reader for what they write: a decoder for the
 * string syntax of section 7 of RFC 8259 and a parser for an array of strings
 * without insignificant whitespace, which is the form `JsonArray` produces.
 */
module Json {
  import opened Base

  const HexDigits: string := "0123456789abcdef"

  /** The bytes section 7 of RFC 8259 forbids unescaped inside a string: below 0x20. */
  predicate IsControl(c: char) {
    c as int < 0x20
  }

  /**
   * The two-byte escapes `JsonEscape` uses: each byte maps to the letter after
   * the backslash. RFC 8259 also allows `\/`, which the code never writes.
   */
  const ShortEscapes: map<char, char> :=
    map['"' := '"', '\\' := '\\', 8 as char := 'b', 12 as char := 'f', '\n' := 'n', '\r' := 'r', '\t' := 't']

  predicate IsLowerHexDigit(d: char) {
    '0' <= d <= '9' || 'a' <= d <= 'f'
  }

  /**
   * The escape `JsonEscape` writes for one byte: the short escape when there
   * is one, `\u00` and two lower-case hex digits for any other control byte,
   * and the byte itself otherwise (as `EscapeTable` states).
   */
  function EscapeChar(c: char): (r: string)
    ensures r != [] && forall k | 0 <= k < |r| :: !IsControl(r[k])
    ensures |r| == 1 <==> !IsControl(c) && c != '"' && c != '\\'
    ensures |r| == 1 ==> r == [c]
    ensures |r| > 1 ==> r[0] == '\\'
  {
    if c == '"' then "\\\""
    else if c == '\\' then "\\\\"
    else if c as int == 8 then "\\b"
    else if c as int == 12 then "\\f"
    else if c == '\n' then "\\n"
    else if c == '\r' then "\\r"
    else if c == '\t' then "\\t"
    else if IsControl(c) then "\\u00" + [HexDigits[c as int / 16], HexDigits[c as int % 16]]
    else [c]
  }

  /** `JsonEscape`. */
  function JsonEscape(v: string): (r: string)
    ensures |r| >= |v|
    ensures forall k | 0 <= k < |r| :: !IsControl(r[k])
  {
    if v == [] then [] else EscapeChar(v[0]) + JsonEscape(v[1..])
  }

  /** The escape table of `EscapeChar`. */
  lemma EscapeTable(c: char)
    ensures c in ShortEscapes ==> EscapeChar(c) == ['\\', ShortEscapes[c]]
    ensures IsControl(c) && c !in ShortEscapes ==>
      && |EscapeChar(c)| == 6 && EscapeChar(c)[..4] == "\\u00"
      && IsLowerHexDigit(EscapeChar(c)[4]) && IsLowerHexDigit(EscapeChar(c)[5])
      && HexValue(EscapeChar(c)[4]) == Some(c as int / 16) && HexValue(EscapeChar(c)[5]) == Some(c as int % 16)
    ensures !IsControl(c) && c !in ShortEscapes ==> EscapeChar(c) == [c]
  {
  }

  /** Escaping works byte by byte: the escape of a concatenation is the concatenation of the escapes. */
  lemma {:induction false} JsonEscapeAppend(a: string, b: string)
    ensures JsonEscape(a + b) == JsonEscape(a) + JsonEscape(b)
    decreases |a|
  {
    if a == [] {
      assert a + b == b;
    } else {
      assert (a + b)[0] == a[0] && (a + b)[1..] == a[1..] + b;
      JsonEscapeAppend(a[1..], b);
    }
  }

  /** One byte is written as its `EscapeChar`. */
  lemma JsonEscapeOne(c: char)
    ensures JsonEscape([c]) == EscapeChar(c)
  {
    assert [c][1..] == [];
  }

  /** A string without quotes, backslashes or control bytes is written as it is. */
  lemma {:induction false} EscapePlain(v: string)
    requires forall k | 0 <= k < |v| :: !IsControl(v[k]) && v[k] != '"' && v[k] != '\\'
    ensures JsonEscape(v) == v
  {
    if v != [] {
      EscapePlain(v[1..]);
    }
  }

  function HexValue(c: char): (r: Option<nat>)
    ensures r.Some? ==> r.value < 16
  {
    if '0' <= c <= '9' then Some(c as int - '0' as int)
    else if 'a' <= c <= 'f' then Some(c as int - 'a' as int + 10)
    else if 'A' <= c <= 'F' then Some(c as int - 'A' as int + 10)
    else None
  }

  /** The four hex digits of a `\u` escape, as a code unit. */
  function Hex4(t: string): (r: Option<nat>)
    requires |t| >= 4
    ensures r.Some? ==> r.value < 0x10000
  {
    match (HexValue(t[0]), HexValue(t[1]), HexValue(t[2]), HexValue(t[3]))
    case (Some(a), Some(b), Some(c), Some(d)) => Some(((a * 16 + b) * 16 + c) * 16 + d)
    case _ => None
  }

  /**
   * The character an escape stands for, given the bytes after its backslash,
   * and how many of them it takes. A lone surrogate is rejected; surrogate
   * pairs are not decoded.
   */
  function Unescape(t: string): (r: Option<(char, nat)>)
    ensures r.Some? ==> 1 <= r.value.1 <= |t|
  {
    if t == [] then None
    else if t[0] == '"' || t[0] == '\\' || t[0] == '/' then Some((t[0], 1))
    else if t[0] == 'b' then Some((8 as char, 1))
    else if t[0] == 'f' then Some((12 as char, 1))
    else if t[0] == 'n' then Some(('\n', 1))
    else if t[0] == 'r' then Some(('\r', 1))
    else if t[0] == 't' then Some(('\t', 1))
    else if t[0] == 'u' && |t| >= 5 then
      match Hex4(t[1..5])
      case Some(u) => if 0xD800 <= u < 0xE000 then None else Some((u as char, 5))
      case None => None
    else None
  }

  /**
   * Reads the characters of a string after its opening quote, up to and
   * including the closing quote: the decoded value and the text after it.
   */
  function DecodeBody(s: string): (r: Option<(string, string)>)
    ensures r.Some? ==> |r.value.1| < |s|
    decreases |s|
  {
    if s == [] then None
    else if s[0] == '"' then Some(([], s[1..]))
    else if s[0] == '\\' then
      match Unescape(s[1..])
      case None => None
      case Some((c, n)) =>
        match DecodeBody(s[1 + n..])
        case None => None
        case Some((x, rest)) => Some(([c] + x, rest))
    else if IsControl(s[0]) then None
    else
      match DecodeBody(s[1..])
      case None => None
      case Some((x, rest)) => Some(([s[0]] + x, rest))
  }

  /** `DecodeBody` with one character put in front of the value it reads. */
  function Prepend(c: char, r: Option<(string, string)>): Option<(string, string)> {
    match r
    case None => None
    case Some((x, rest)) => Some(([c] + x, rest))
  }

  lemma HexDigitValue(d: nat)
    requires d < 16
    ensures HexValue(HexDigits[d]) == Some(d)
  {
  }

  /** A backslash escape standing for `c` is read as `c`, and reading goes on after it. */
  lemma DecodeAfterEscape(s: string, c: char, n: nat)
    requires s != [] && s[0] == '\\' && Unescape(s[1..]) == Some((c, n))
    ensures DecodeBody(s) == Prepend(c, DecodeBody(s[1 + n..]))
  {
  }

  lemma UnescapeHex(c: char, t: string)
    requires IsControl(c)
    ensures Unescape(['u', '0', '0', HexDigits[c as int / 16], HexDigits[c as int % 16]] + t) == Some((c, 5))
  {
    var hi, lo := c as int / 16, c as int % 16;
    var u := ['u', '0', '0', HexDigits[hi], HexDigits[lo]] + t;
    HexDigitValue(hi);
    HexDigitValue(lo);
    assert u[1..5] == ['0', '0', HexDigits[hi], HexDigits[lo]];
    assert Hex4(u[1..5]) == Some(c as int);
  }

  /** The escape of one byte is read back as that byte. */
  lemma DecodeEscapeChar(c: char, t: string)
    ensures DecodeBody(EscapeChar(c) + t) == Prepend(c, DecodeBody(t))
  {
    var e := EscapeChar(c);
    var s := e + t;
    if |e| == 1 {
      assert s[0] == c && s[1..] == t;
    } else if |e| == 2 {
      assert s[1..] == [e[1]] + t;
      assert Unescape(s[1..]) == Some((c, 1));
      DecodeAfterEscape(s, c, 1);
      assert s[2..] == t;
    } else {
      assert IsControl(c);
      var hex := ['u', '0', '0', HexDigits[c as int / 16], HexDigits[c as int % 16]];
      assert s[1..] == hex + t;
      UnescapeHex(c, t);
      DecodeAfterEscape(s, c, 5);
      assert s[6..] == t;
    }
  }

  /** Decoding undoes `JsonEscape`: the value comes back, and reading stops at the closing quote. */
  lemma {:induction false} DecodeEscaped(v: string, rest: string)
    ensures DecodeBody(JsonEscape(v) + "\"" + rest) == Some((v, rest))
  {
    if v == [] {
      assert JsonEscape(v) + "\"" + rest == "\"" + rest;
    } else {
      var t := JsonEscape(v[1..]) + "\"" + rest;
      assert JsonEscape(v) + "\"" + rest == EscapeChar(v[0]) + t;
      DecodeEscapeChar(v[0], t);
      DecodeEscaped(v[1..], rest);
      assert [v[0]] + v[1..] == v;
    }
  }

  /** One array element: the escaped value in double quotes. */
  function Quoted(v: string): string {
    "\"" + JsonEscape(v) + "\""
  }

  /** The elements of `JsonArray`, separated by commas. */
  function Elements(vs: seq<string>): string {
    if vs == [] then []
    else if |vs| == 1 then Quoted(vs[0])
    else Quoted(vs[0]) + "," + Elements(vs[1..])
  }

  /** `JsonArray`. */
  function JsonArray(vs: seq<string>): (r: string)
    ensures |r| >= 2 && r[0] == '[' && r[|r| - 1] == ']'
  {
    "[" + Elements(vs) + "]"
  }

  /** Reads `"…"` items separated by `,` up to a closing `]` that must end the text. */
  function ParseItems(t: string): (r: Option<seq<string>>)
    decreases |t|
  {
    if t == [] || t[0] != '"' then None
    else
      match DecodeBody(t[1..])
      case None => None
      case Some((v, rest)) =>
        if rest == "]" then Some([v])
        else if rest != [] && rest[0] == ',' then
          match ParseItems(rest[1..])
          case Some(vs) => Some([v] + vs)
          case None => None
        else None
  }

  /** Reads an array of strings written without insignificant whitespace. */
  function ParseStringArray(s: string): Option<seq<string>> {
    if |s| >= 2 && s[0] == '[' then
      if s[1..] == "]" then Some([]) else ParseItems(s[1..])
    else None
  }

  lemma ParseLastItem(v: string)
    ensures ParseItems(Quoted(v) + "]") == Some([v])
  {
    var t := Quoted(v) + "]";
    assert t[0] == '"' && t[1..] == JsonEscape(v) + "\"" + "]";
    DecodeEscaped(v, "]");
  }

  lemma ParseNextItem(v: string, more: string, vs: seq<string>)
    requires ParseItems(more) == Some(vs)
    ensures ParseItems(Quoted(v) + "," + more) == Some([v] + vs)
  {
    var t := Quoted(v) + "," + more;
    assert t[0] == '"' && t[1..] == JsonEscape(v) + "\"" + ("," + more);
    DecodeEscaped(v, "," + more);
    assert ("," + more)[1..] == more;
  }

  lemma {:induction false} ItemsRoundTrip(vs: seq<string>)
    requires vs != []
    ensures ParseItems(Elements(vs) + "]") == Some(vs)
  {
    if |vs| == 1 {
      ParseLastItem(vs[0]);
      assert vs == [vs[0]];
    } else {
      var more := Elements(vs[1..]) + "]";
      ItemsRoundTrip(vs[1..]);
      ParseNextItem(vs[0], more, vs[1..]);
      assert Elements(vs) + "]" == Quoted(vs[0]) + "," + more;
      assert [vs[0]] + vs[1..] == vs;
    }
  }

  /** Reading back what `JsonArray` writes gives the same strings, in order. */
  lemma ArrayRoundTrip(vs: seq<string>)
    ensures ParseStringArray(JsonArray(vs)) == Some(vs)
  {
    var s := JsonArray(vs);
    if vs == [] {
      assert s == "[]";
    } else {
      ItemsRoundTrip(vs);
      assert s[1..] == Elements(vs) + "]";
      assert Elements(vs)[0] == '"';
    }
  }
}

=== FILE: lexer.dfy ===
/**
 * `TokenizeCMake` of src/cmake_fetchcontent.cpp: a flat lexer over CMake-style
 * text. It yields Word, String and Punct tokens with their half-open byte span
 * `[start, end)` in the input, and skips whitespace and `#` line comments.
 */
module Lexer {
  import opened Base

  datatype TokenKind = Word | Str | Punct

  /** `quote` is the delimiter of a String token and `NoQuote` otherwise. */
  datatype Token = Token(kind: TokenKind, text: string, start: nat, end: nat, quote: char)

  const NoQuote: char := '\0'

  predicate IsParen(c: char) {
    c == '(' || c == ')'
  }

  /** A byte that ends a Word. A quote is not one of them, so `ab"c"` is a single Word. */
  predicate EndsWord(c: char) {
    IsSpace(c) || IsParen(c) || c == '#'
  }

  /** What every token says about the bytes under its span. */
  predicate TokenOk(c: string, t: Token) {
    && t.start < t.end <= |c|
    && match t.kind
       case Word =>
         && t.text == c[t.start..t.end]
         && t.quote == NoQuote
         && !IsQuote(c[t.start])
         && (forall p | t.start <= p < t.end :: !EndsWord(c[p]))
         && (t.end == |c| || EndsWord(c[t.end]))
       case Punct =>
         && t.end == t.start + 1
         && IsParen(c[t.start])
         && t.text == [c[t.start]]
         && t.quote == NoQuote
       case Str =>
         && IsQuote(t.quote)
         && c[t.start] == t.quote
         && t.text == (if t.end - t.start >= 2 then c[t.start + 1..t.end - 1] else [])
         && (t.end == |c| || (t.end - t.start >= 2 && c[t.end - 1] == t.quote))
         && t.end == StringEnd(c, t.quote, t.start + 1)
  }

  /** Token spans lie in order and never overlap. */
  predicate Ascending(toks: seq<Token>) {
    forall a, b | 0 <= a < b < |toks| :: toks[a].end <= toks[b].start
  }

  /** Skips a comment: the index of the next newline at or after `i`, or the end. */
  function CommentEnd(c: string, i: nat): (r: nat)
    requires i <= |c|
    ensures i <= r <= |c|
    ensures r == |c| || c[r] == '\n'
    ensures forall p | i <= p < r :: c[p] != '\n'
    decreases |c| - i
  {
    if i == |c| || c[i] == '\n' then i else CommentEnd(c, i + 1)
  }

  /** The end of the maximal run of non-`EndsWord` bytes starting at `i`. */
  function WordEnd(c: string, i: nat): (r: nat)
    requires i <= |c|
    ensures i <= r <= |c|
    ensures r == |c| || EndsWord(c[r])
    ensures forall p | i <= p < r :: !EndsWord(c[p])
    decreases |c| - i
  {
    if i == |c| || EndsWord(c[i]) then i else WordEnd(c, i + 1)
  }

  /**
   * Scans a quoted body from `i`, just after the opening quote `q`. A backslash
   * with a byte after it skips both; the body ends after the next unescaped `q`,
   * or at the end of the input when the string is unterminated.
   */
  function StringEnd(c: string, q: char, i: nat): (r: nat)
    requires i <= |c|
    ensures i <= r <= |c|
    ensures r == |c| || (i < r && c[r - 1] == q)
    decreases |c| - i
  {
    if i == |c| then i
    else if c[i] == '\\' && i + 1 < |c| then StringEnd(c, q, i + 2)
    else if c[i] == q then i + 1
    else StringEnd(c, q, i + 1)
  }

  /** The number of backslashes directly before `p`, counting no further back than `lo`. */
  function BackslashRun(c: string, lo: nat, p: nat): nat
    requires lo <= p <= |c|
    decreases p - lo
  {
    if p > lo && c[p - 1] == '\\' then 1 + BackslashRun(c, lo, p - 1) else 0
  }

  /** In a quoted body starting at `lo`, byte `p` is an unescaped `q`: a `q` after an even run of backslashes. */
  predicate ClosesAt(c: string, q: char, lo: nat, p: nat)
    requires lo <= p < |c|
  {
    c[p] == q && BackslashRun(c, lo, p) % 2 == 0
  }

  lemma {:induction false} StringEndScan(c: string, q: char, lo: nat, i: nat)
    requires lo <= i <= |c| && IsQuote(q)
    requires i < |c| ==> BackslashRun(c, lo, i) % 2 == 0
    requires forall p | lo <= p < i :: !ClosesAt(c, q, lo, p)
    ensures forall p | lo <= p && p + 1 < StringEnd(c, q, i) :: !ClosesAt(c, q, lo, p)
    ensures || (i < StringEnd(c, q, i) && ClosesAt(c, q, lo, StringEnd(c, q, i) - 1))
            || (StringEnd(c, q, i) == |c| && forall p | lo <= p < |c| :: !ClosesAt(c, q, lo, p))
    decreases |c| - i
  {
    if i == |c| {
    } else if c[i] == '\\' && i + 1 < |c| {
      assert BackslashRun(c, lo, i + 1) == 1 + BackslashRun(c, lo, i);
      assert i + 2 < |c| ==> BackslashRun(c, lo, i + 2) % 2 == 0 by {
        if i + 2 < |c| && c[i + 1] == '\\' {
          assert BackslashRun(c, lo, i + 2) == 1 + BackslashRun(c, lo, i + 1);
        }
      }
      assert !ClosesAt(c, q, lo, i) && !ClosesAt(c, q, lo, i + 1);
      StringEndScan(c, q, lo, i + 2);
    } else if c[i] == q {
      assert ClosesAt(c, q, lo, i);
    } else {
      assert !ClosesAt(c, q, lo, i);
      assert i + 1 < |c| ==> BackslashRun(c, lo, i + 1) == 0;
      StringEndScan(c, q, lo, i + 1);
    }
  }

  /**
   * `StringEnd` stops just after the first unescaped `q` of the body that
   * starts at `i`; it returns the end of the input exactly when there is none.
   */
  lemma StringEndIsFirstCloser(c: string, q: char, i: nat)
    requires i <= |c| && IsQuote(q)
    ensures forall p | i <= p && p + 1 < StringEnd(c, q, i) :: !ClosesAt(c, q, i, p)
    ensures || (i < StringEnd(c, q, i) && ClosesAt(c, q, i, StringEnd(c, q, i) - 1))
            || (StringEnd(c, q, i) == |c| && forall p | i <= p < |c| :: !ClosesAt(c, q, i, p))
  {
    StringEndScan(c, q, i, i);
  }

  /** The lexer loop, from byte `i` on. */
  function TokenizeFrom(c: string, i: nat): (toks: seq<Token>)
    requires i <= |c|
    ensures forall k | 0 <= k < |toks| :: i <= toks[k].start && TokenOk(c, toks[k])
    ensures Ascending(toks)
    decreases |c| - i
  {
    if i == |c| then []
    else if IsSpace(c[i]) then TokenizeFrom(c, i + 1)
    else if c[i] == '#' then
      var e := CommentEnd(c, i);
      assert e > i;
      TokenizeFrom(c, e)
    else if IsQuote(c[i]) then
      var e := StringEnd(c, c[i], i + 1);
      var text := if e > i + 1 then c[i + 1..e - 1] else [];
      [Token(Str, text, i, e, c[i])] + TokenizeFrom(c, e)
    else if IsParen(c[i]) then
      [Token(Punct, [c[i]], i, i + 1, NoQuote)] + TokenizeFrom(c, i + 1)
    else
      var e := WordEnd(c, i);
      [Token(Word, c[i..e], i, e, NoQuote)] + TokenizeFrom(c, e)
  }

  /** `TokenizeCMake`. */
  function Tokenize(c: string): (toks: seq<Token>)
    ensures forall k | 0 <= k < |toks| :: TokenOk(c, toks[k])
    ensures Ascending(toks)
  {
    TokenizeFrom(c, 0)
  }

  predicate Covered(toks: seq<Token>, p: nat) {
    exists k | 0 <= k < |toks| :: toks[k].start <= p < toks[k].end
  }

  /**
   * Byte `p` follows, on the same line, a `#` at or after `lo` that no token
   * covers: a `#` inside a String does not count.
   */
  predicate InComment(c: string, toks: seq<Token>, lo: nat, p: nat)
    requires p < |c|
  {
    exists q | lo <= q <= p :: c[q] == '#' && !Covered(toks, q) && forall r | q <= r <= p :: c[r] != '\n'
  }

  /** Coverage from `i` on: every byte not under a token is whitespace or comment. */
  predicate CoversFrom(c: string, toks: seq<Token>, i: nat) {
    forall p | i <= p < |c| && !Covered(toks, p) :: IsSpace(c[p]) || InComment(c, toks, i, p)
  }

  lemma ConsCovers(c: string, t: Token, rest: seq<Token>, i: nat)
    requires t.start == i <= t.end
    requires CoversFrom(c, rest, t.end)
    ensures CoversFrom(c, [t] + rest, i)
  {
    var toks := [t] + rest;
    forall p: nat | i <= p < t.end
      ensures Covered(toks, p)
    {
      assert toks[0].start <= p < toks[0].end;
    }
    forall p: nat | Covered(rest, p)
      ensures Covered(toks, p)
    {
      var k :| 0 <= k < |rest| && rest[k].start <= p < rest[k].end;
      assert toks[k + 1] == rest[k];
    }
    forall r: nat | t.end <= r && Covered(toks, r)
      ensures Covered(rest, r)
    {
      var k :| 0 <= k < |toks| && toks[k].start <= r < toks[k].end;
      assert k > 0 && rest[k - 1] == toks[k];
    }
    forall p | t.end <= p < |c| && !Covered(toks, p) && InComment(c, rest, t.end, p)
      ensures InComment(c, toks, i, p)
    {
      var q :| t.end <= q <= p && c[q] == '#' && !Covered(rest, q) && forall r | q <= r <= p :: c[r] != '\n';
      assert !Covered(toks, q);
    }
  }

  lemma CommentCovers(c: string, toks: seq<Token>, i: nat)
    requires i < |c| && c[i] == '#'
    requires forall k | 0 <= k < |toks| :: CommentEnd(c, i) <= toks[k].start
    requires CoversFrom(c, toks, CommentEnd(c, i))
    ensures CoversFrom(c, toks, i)
  {
    var e := CommentEnd(c, i);
    assert !Covered(toks, i);
    forall p | i <= p < e
      ensures InComment(c, toks, i, p)
    {
      assert c[i] == '#' && forall r | i <= r <= p :: c[r] != '\n';
    }
    forall p | e <= p < |c| && !Covered(toks, p) && InComment(c, toks, e, p)
      ensures InComment(c, toks, i, p)
    {
    }
  }

  lemma {:induction false} TokenizeFromCovers(c: string, i: nat)
    requires i <= |c|
    ensures CoversFrom(c, TokenizeFrom(c, i), i)
    decreases |c| - i
  {
    if i == |c| {
    } else if IsSpace(c[i]) {
      TokenizeFromCovers(c, i + 1);
    } else if c[i] == '#' {
      TokenizeFromCovers(c, CommentEnd(c, i));
      CommentCovers(c, TokenizeFrom(c, i), i);
    } else {
      var e := if IsQuote(c[i]) then StringEnd(c, c[i], i + 1)
        else if IsParen(c[i]) then i + 1
        else WordEnd(c, i);
      var toks := TokenizeFrom(c, i);
      TokenizeFromCovers(c, e);
      ConsCovers(c, toks[0], TokenizeFrom(c, e), i);
    }
  }

  /** From `i` on, a `#` outside every token starts a comment that no token reaches into. */
  predicate CommentsSkippedFrom(c: string, toks: seq<Token>, i: nat) {
    forall p | i <= p < |c| && c[p] == '#' && !Covered(toks, p) ::
      forall r | p <= r < CommentEnd(c, p) :: !Covered(toks, r)
  }

  /** Every byte of a comment has the same comment end. */
  lemma {:induction false} CommentEndWithin(c: string, i: nat, p: nat)
    requires i <= |c| && i <= p <= CommentEnd(c, i)
    ensures CommentEnd(c, p) == CommentEnd(c, i)
    decreases CommentEnd(c, i) - p
  {
    if p < CommentEnd(c, i) {
      CommentEndWithin(c, i, p + 1);
    }
  }

  lemma ConsSkips(c: string, t: Token, rest: seq<Token>, i: nat)
    requires t.start == i <= t.end
    requires CommentsSkippedFrom(c, rest, t.end)
    ensures CommentsSkippedFrom(c, [t] + rest, i)
  {
    var toks := [t] + rest;
    forall p: nat | i <= p < t.end
      ensures Covered(toks, p)
    {
      assert toks[0].start <= p < toks[0].end;
    }
    forall p: nat | Covered(rest, p)
      ensures Covered(toks, p)
    {
      var k :| 0 <= k < |rest| && rest[k].start <= p < rest[k].end;
      assert toks[k + 1] == rest[k];
    }
    forall r: nat | t.end <= r && Covered(toks, r)
      ensures Covered(rest, r)
    {
      var k :| 0 <= k < |toks| && toks[k].start <= r < toks[k].end;
      assert k > 0 && rest[k - 1] == toks[k];
    }
  }

  lemma CommentSkips(c: string, toks: seq<Token>, i: nat)
    requires i < |c| && c[i] == '#'
    requires forall k | 0 <= k < |toks| :: CommentEnd(c, i) <= toks[k].start
    requires CommentsSkippedFrom(c, toks, CommentEnd(c, i))
    ensures CommentsSkippedFrom(c, toks, i)
  {
    var e := CommentEnd(c, i);
    forall p | i <= p < e && c[p] == '#'
      ensures forall r | p <= r < CommentEnd(c, p) :: !Covered(toks, r)
    {
      CommentEndWithin(c, i, p);
    }
  }

  lemma {:induction false} TokenizeFromSkipsComments(c: string, i: nat)
    requires i <= |c|
    ensures CommentsSkippedFrom(c, TokenizeFrom(c, i), i)
    decreases |c| - i
  {
    if i == |c| {
    } else if IsSpace(c[i]) {
      TokenizeFromSkipsComments(c, i + 1);
    } else if c[i] == '#' {
      TokenizeFromSkipsComments(c, CommentEnd(c, i));
      CommentSkips(c, TokenizeFrom(c, i), i);
    } else {
      var e := if IsQuote(c[i]) then StringEnd(c, c[i], i + 1)
        else if IsParen(c[i]) then i + 1
        else WordEnd(c, i);
      var toks := TokenizeFrom(c, i);
      TokenizeFromSkipsComments(c, e);
      ConsSkips(c, toks[0], TokenizeFrom(c, e), i);
    }
  }

  /**
   * No token reaches into a comment: a `#` that no token covers starts a
   * comment, and no byte of it up to the newline lies under a token.
   */
  lemma TokenizeSkipsComments(c: string)
    ensures CommentsSkippedFrom(c, Tokenize(c), 0)
  {
    TokenizeFromSkipsComments(c, 0);
  }

  /**
   * Every byte outside all token spans is whitespace or part of a comment that
   * starts at a `#` outside every token.
   */
  lemma TokenizeCovers(c: string)
    ensures CoversFrom(c, Tokenize(c), 0)
  {
    TokenizeFromCovers(c, 0);
  }
}

=== FILE: lines.dfy ===
/**
 * The `while (std::getline(stream, line))` loop over an `std::istringstream`
 * that both parsers of src/allowlist.cpp read their input with. Each line is
 * the bytes up to the next `\n`, which is consumed and not kept; a final line
 * without `\n` is still read, but a `\n` at the very end does not start
 * another, empty, line. Empty input reads no line at all.
 */
module TextLines {

  /** The index of the first `\n` at or after `i`, or `|s|` if there is none. */
  function LineEnd(s: string, i: nat): (r: nat)
    requires i <= |s|
    ensures i <= r <= |s|
    ensures r < |s| ==> s[r] == '\n'
    ensures forall k | i <= k < r :: s[k] != '\n'
    decreases |s| - i
  {
    if i == |s| || s[i] == '\n' then i else LineEnd(s, i + 1)
  }

  /** The lines `getline` reads from `s`, in order. */
  function Lines(s: string): (r: seq<string>)
    ensures forall k | 0 <= k < |r| :: '\n' !in r[k]
    ensures s != [] ==> r != []
    decreases |s|
  {
    if s == [] then []
    else
      var e := LineEnd(s, 0);
      assert forall k | 0 <= k < e :: s[..e][k] == s[k];
      if e == |s| then [s] else [s[..e]] + Lines(s[e + 1..])
  }

  /** Writes each line followed by `\n`: a text file in its usual form. */
  function JoinLines(ls: seq<string>): string {
    if ls == [] then [] else ls[0] + "\n" + JoinLines(ls[1..])
  }

  /** Ends with a line break or is empty: the text is a whole number of lines. */
  predicate WholeLines(s: string) {
    s == [] || s[|s| - 1] == '\n'
  }

  lemma LineEndAt(s: string, e: nat)
    requires e < |s| && s[e] == '\n'
    requires forall k | 0 <= k < e :: s[k] != '\n'
    ensures LineEnd(s, 0) == e
  {
  }

  /** Reading back lines written by `JoinLines` gives the same lines. */
  lemma {:induction false} LinesOfJoin(ls: seq<string>)
    requires forall k | 0 <= k < |ls| :: '\n' !in ls[k]
    ensures Lines(JoinLines(ls)) == ls
  {
    if ls != [] {
      var s := JoinLines(ls);
      var rest := JoinLines(ls[1..]);
      assert s == ls[0] + "\n" + rest;
      assert forall k | 0 <= k < |ls[0]| :: s[k] == ls[0][k];
      LineEndAt(s, |ls[0]|);
      assert s[..|ls[0]|] == ls[0];
      assert s[|ls[0]| + 1..] == rest;
      LinesOfJoin(ls[1..]);
    }
  }

  /** Writing back the lines read from `s` restores `s`, with a final `\n` added when it lacked one. */
  lemma {:induction false} JoinOfLines(s: string)
    ensures JoinLines(Lines(s)) == if WholeLines(s) then s else s + "\n"
    decreases |s|
  {
    if s != [] {
      var e := LineEnd(s, 0);
      if e == |s| {
        assert Lines(s) == [s];
        assert JoinLines([s]) == s + "\n";
      } else {
        var tail := s[e + 1..];
        JoinOfLines(tail);
        FirstLine(s, e);
        assert JoinLines(Lines(s)) == s[..e] + "\n" + JoinLines(Lines(tail));
      }
    }
  }

  /** Splitting at the first line break and gluing back. */
  lemma FirstLine(s: string, e: nat)
    requires e < |s| && s[e] == '\n'
    ensures s == s[..e] + "\n" + s[e + 1..]
    ensures WholeLines(s) <==> WholeLines(s[e + 1..])
  {
    assert s == s[..e] + [s[e]] + s[e + 1..];
  }

  /** The first line of a text that has a line break, and the lines after it. */
  lemma LinesCons(s: string, e: nat)
    requires e < |s| && s[e] == '\n'
    requires forall k | 0 <= k < e :: s[k] != '\n'
    ensures Lines(s) == [s[..e]] + Lines(s[e + 1..])
  {
    LineEndAt(s, e);
  }

  lemma DropOfAppend(a: string, b: string, i: nat)
    requires i <= |a|
    ensures (a + b)[i..] == a[i..] + b
  {
    assert forall k | 0 <= k < |(a + b)[i..]| :: (a + b)[i..][k] == (a[i..] + b)[k];
  }

  /** The first line of `a + b`, when it ends inside `a`. */
  lemma LinesAppendStep(a: string, b: string, e: nat)
    requires e < |a| && a[e] == '\n'
    requires forall k | 0 <= k < e :: a[k] != '\n'
    ensures Lines(a + b) == [a[..e]] + Lines(a[e + 1..] + b)
  {
    var ab := a + b;
    assert forall k | 0 <= k < e :: ab[k] == a[k];
    LinesCons(ab, e);
    assert ab[..e] == a[..e];
    DropOfAppend(a, b, e + 1);
  }

  /** Splits off the first line of a text of whole lines, alone and with more text after it. */
  lemma SplitFirstLine(a: string, b: string) returns (e: nat)
    requires WholeLines(a) && a != []
    ensures e < |a| && WholeLines(a[e + 1..])
    ensures Lines(a) == [a[..e]] + Lines(a[e + 1..])
    ensures Lines(a + b) == [a[..e]] + Lines(a[e + 1..] + b)
  {
    e := LineEnd(a, 0);
    LinesCons(a, e);
    LinesAppendStep(a, b, e);
  }

  /** A text made of whole lines followed by more text reads as the lines of each part in turn. */
  lemma {:induction false} LinesAppend(a: string, b: string)
    requires WholeLines(a)
    ensures Lines(a + b) == Lines(a) + Lines(b)
    decreases |a|
  {
    if a != [] {
      var e := SplitFirstLine(a, b);
      LinesAppend(a[e + 1..], b);
      var x, p, q := a[..e], Lines(a[e + 1..]), Lines(b);
      assert [x] + (p + q) == ([x] + p) + q;
    } else {
      assert a + b == b;
    }
  }
}

=== FILE: makefile.dfy ===
/**
 * src/makefile_parser.cpp: `ExtractLibrariesFromMakefile` blanks out comments,
 * then reports every match of the regular expression `-l(:?[A-Za-z0-9_./+\-]+)`
 * in order, as the first capture group with a leading `:` dropped. The regular
 * expression engine is replaced by a scanner for this one pattern.
 */
module Makefile {
  import opened Base
  import Allowlist

  /** The bytes of the character class `[A-Za-z0-9_./+\-]`. */
  predicate IsNameChar(c: char) {
    || ('A' <= c <= 'Z') || ('a' <= c <= 'z') || ('0' <= c <= '9')
    || c == '_' || c == '.' || c == '/' || c == '+' || c == '-'
  }

  /** No line break in `c[j..i]`. */
  predicate NoBreak(c: string, j: nat, i: nat)
    requires j <= i <= |c|
  {
    forall m | j <= m < i :: c[m] != '\n'
  }

  /** Byte `i - 1` lies in a comment: some `#` at or before it, with no line break since. */
  ghost predicate OpenAt(c: string, i: nat)
    requires i <= |c|
  {
    exists j | 0 <= j < i :: c[j] == '#' && NoBreak(c, j, i)
  }

  lemma OpenStep(c: string, i: nat)
    requires i < |c|
    ensures OpenAt(c, i + 1) <==> c[i] != '\n' && (OpenAt(c, i) || c[i] == '#')
  {
    if c[i] != '\n' && OpenAt(c, i) {
      var j :| 0 <= j < i && c[j] == '#' && NoBreak(c, j, i);
      assert NoBreak(c, j, i + 1);
    }
    if c[i] == '#' {
      assert NoBreak(c, i, i + 1);
    }
    if OpenAt(c, i + 1) {
      var j :| 0 <= j < i + 1 && c[j] == '#' && NoBreak(c, j, i + 1);
      assert c[i] != '\n';
      if j < i {
        assert NoBreak(c, j, i);
      }
    }
  }

  /** The loop of `StripMakefileComments` from byte `i`, with `inComment` its flag. */
  function BlankFrom(c: string, i: nat, inComment: bool): (r: string)
    requires i <= |c| && inComment == OpenAt(c, i)
    ensures |r| == |c| - i
    ensures forall k | 0 <= k < |r| :: r[k] == if OpenAt(c, i + k + 1) then ' ' else c[i + k]
    decreases |c| - i
  {
    if i == |c| then []
    else
      OpenStep(c, i);
      var ch := c[i];
      if inComment then
        if ch == '\n' then [ch] + BlankFrom(c, i + 1, false) else [' '] + BlankFrom(c, i + 1, true)
      else if ch == '#' then [' '] + BlankFrom(c, i + 1, true)
      else [ch] + BlankFrom(c, i + 1, false)
  }

  /**
   * `StripMakefileComments`: every byte from a `#` up to the end of its line
   * becomes a space; the line break itself and everything else is kept.
   */
  function StripMakefileComments(c: string): (r: string)
    ensures |r| == |c|
    ensures forall k | 0 <= k < |r| :: r[k] == if OpenAt(c, k + 1) then ' ' else c[k]
  {
    BlankFrom(c, 0, false)
  }

  /** Blanking removes every `#` and keeps every line break where it was. */
  lemma StrippedLayout(c: string)
    ensures '#' !in StripMakefileComments(c)
    ensures forall k | 0 <= k < |c| :: StripMakefileComments(c)[k] == '\n' <==> c[k] == '\n'
  {
    var r := StripMakefileComments(c);
    forall k | 0 <= k < |c|
      ensures r[k] != '#' && (r[k] == '\n' <==> c[k] == '\n')
    {
      if c[k] == '#' {
        assert NoBreak(c, k, k + 1);
      }
      OpenStep(c, k);
    }
  }

  /** Without `#` there is nothing to blank. */
  lemma StripWithoutHash(c: string)
    requires '#' !in c
    ensures StripMakefileComments(c) == c
  {
    forall i | 0 <= i <= |c|
      ensures !OpenAt(c, i)
    {
      assert forall j | 0 <= j < i :: c[j] != '#';
    }
  }

  /** Blanking a second time changes nothing. */
  lemma StripIdempotent(c: string)
    ensures StripMakefileComments(StripMakefileComments(c)) == StripMakefileComments(c)
  {
    StrippedLayout(c);
    StripWithoutHash(StripMakefileComments(c));
  }

  predicate AllNameChars(s: string, lo: nat, hi: nat)
    requires lo <= hi <= |s|
  {
    forall k | lo <= k < hi :: IsNameChar(s[k])
  }

  /** The first index at or after `i` whose byte is outside the class. */
  function NameEnd(s: string, i: nat): (r: nat)
    requires i <= |s|
    ensures i <= r <= |s|
    decreases |s| - i
  {
    if i < |s| && IsNameChar(s[i]) then NameEnd(s, i + 1) else i
  }

  /** `NameEnd` skips class bytes only and stops at the first byte outside the class. */
  lemma {:induction false} NameEndRun(s: string, i: nat)
    requires i <= |s|
    ensures AllNameChars(s, i, NameEnd(s, i))
    ensures NameEnd(s, i) == |s| || !IsNameChar(s[NameEnd(s, i)])
    decreases |s| - i
  {
    if i < |s| && IsNameChar(s[i]) {
      NameEndRun(s, i + 1);
    }
  }

  /**
   * `s[p..e]` is in the language of `-l(:?[A-Za-z0-9_./+\-]+)`: `-l`, an
   * optional `:`, then one or more bytes of the class.
   */
  predicate IsMatch(s: string, p: nat, e: nat) {
    && p + 2 < e <= |s| && s[p] == '-' && s[p + 1] == 'l'
    && (AllNameChars(s, p + 2, e) || (s[p + 2] == ':' && p + 3 < e && AllNameChars(s, p + 3, e)))
  }

  /** Where the group proper starts: after `-l` and the `:` when there is one. */
  function GroupStart(s: string, p: nat): (g: nat)
    requires p + 2 <= |s|
  {
    if p + 2 < |s| && s[p + 2] == ':' then p + 3 else p + 2
  }

  /**
   * The end of the match the engine reports at `p`, if any. The greedy `:?`
   * takes the `:` when one is there, and then `+` takes the longest run; as `:`
   * is not in the class, that is the longest match at `p`.
   */
  function MatchAt(s: string, p: nat): (r: Option<nat>)
    requires p <= |s|
    ensures r.Some? ==> p + 2 < r.value <= |s|
  {
    if p + 1 < |s| && s[p] == '-' && s[p + 1] == 'l' then
      var e := NameEnd(s, GroupStart(s, p));
      if e > GroupStart(s, p) then Some(e) else None
    else None
  }

  /**
   * The scanner agrees with the pattern: it reports a match at `p` exactly
   * when the pattern matches there, and then the longest one.
   */
  lemma MatchAtIsLongestMatch(s: string, p: nat)
    requires p <= |s|
    ensures MatchAt(s, p).Some? ==> IsMatch(s, p, MatchAt(s, p).value)
    ensures MatchAt(s, p).Some? ==> forall e: nat | IsMatch(s, p, e) :: e <= MatchAt(s, p).value
    ensures MatchAt(s, p).None? ==> forall e: nat :: !IsMatch(s, p, e)
  {
    if p + 2 <= |s| {
      NameEndRun(s, GroupStart(s, p));
    }
  }

  /** A match the iterator reports, as its span in the blanked text. */
  datatype Hit = Hit(start: nat, end: nat)

  /** Byte `q` lies inside none of `hits`. */
  predicate OutsideHits(hits: seq<Hit>, q: nat) {
    forall k | 0 <= k < |hits| :: !(hits[k].start <= q < hits[k].end)
  }

  /** The `sregex_iterator` from byte `i`: search, report, resume at the end of the match. */
  function HitsFrom(s: string, i: nat): (r: seq<Hit>)
    requires i <= |s|
    ensures forall k | 0 <= k < |r| :: i <= r[k].start && r[k].start + 2 < r[k].end <= |s|
    decreases |s| - i
  {
    if i == |s| then []
    else
      match MatchAt(s, i)
      case Some(e) => [Hit(i, e)] + HitsFrom(s, e)
      case None => HitsFrom(s, i + 1)
  }

  /** The `k`-th reported span is the match found at its start. */
  lemma {:induction false} HitIsMatch(s: string, i: nat, k: nat)
    requires i <= |s| && k < |HitsFrom(s, i)|
    ensures MatchAt(s, HitsFrom(s, i)[k].start) == Some(HitsFrom(s, i)[k].end)
    decreases |s| - i
  {
    match MatchAt(s, i)
    case Some(e) =>
      if k > 0 {
        HitIsMatch(s, e, k - 1);
      }
    case None =>
      HitIsMatch(s, i + 1, k);
  }

  /** An earlier span ends before a later one starts. */
  lemma {:induction false} HitsOrdered(s: string, i: nat, a: nat, b: nat)
    requires i <= |s| && a < b < |HitsFrom(s, i)|
    ensures HitsFrom(s, i)[a].end <= HitsFrom(s, i)[b].start
    decreases |s| - i
  {
    match MatchAt(s, i)
    case Some(e) =>
      if a > 0 {
        HitsOrdered(s, e, a - 1, b - 1);
      } else {
        assert HitsFrom(s, i)[b] == HitsFrom(s, e)[b - 1];
      }
    case None =>
      HitsOrdered(s, i + 1, a, b);
  }

  /** Each reported span is the match found at its start, and the spans come in order without overlap. */
  lemma HitsAreMatches(s: string, i: nat)
    requires i <= |s|
    ensures forall k | 0 <= k < |HitsFrom(s, i)| :: MatchAt(s, HitsFrom(s, i)[k].start) == Some(HitsFrom(s, i)[k].end)
    ensures forall a, b | 0 <= a < b < |HitsFrom(s, i)| :: HitsFrom(s, i)[a].end <= HitsFrom(s, i)[b].start
  {
    forall k | 0 <= k < |HitsFrom(s, i)|
      ensures MatchAt(s, HitsFrom(s, i)[k].start) == Some(HitsFrom(s, i)[k].end)
    {
      HitIsMatch(s, i, k);
    }
    forall a, b | 0 <= a < b < |HitsFrom(s, i)|
      ensures HitsFrom(s, i)[a].end <= HitsFrom(s, i)[b].start
    {
      HitsOrdered(s, i, a, b);
    }
  }

  /** A byte outside every span of `[h] + hs` is outside `h` and outside every span of `hs`. */
  lemma OutsideTail(h: Hit, hs: seq<Hit>, q: nat)
    requires OutsideHits([h] + hs, q)
    ensures !(h.start <= q < h.end) && OutsideHits(hs, q)
  {
    assert ([h] + hs)[0] == h;
    forall k | 0 <= k < |hs|
      ensures !(hs[k].start <= q < hs[k].end)
    {
      assert ([h] + hs)[k + 1] == hs[k];
    }
  }

  /** No match starts at byte `q` when no reported span covers it. */
  lemma {:induction false} NoMatchOutside(s: string, i: nat, q: nat)
    requires i <= q < |s| && OutsideHits(HitsFrom(s, i), q)
    ensures MatchAt(s, q).None?
    decreases |s| - i
  {
    match MatchAt(s, i)
    case Some(e) =>
      OutsideTail(Hit(i, e), HitsFrom(s, e), q);
      NoMatchOutside(s, e, q);
    case None =>
      if i < q {
        NoMatchOutside(s, i + 1, q);
      }
  }

  /** The matches are leftmost: no match starts at a byte that no reported match covers. */
  lemma HitsLeftmost(s: string, i: nat)
    requires i <= |s|
    ensures forall q | i <= q < |s| && OutsideHits(HitsFrom(s, i), q) :: MatchAt(s, q).None?
  {
    forall q | i <= q < |s| && OutsideHits(HitsFrom(s, i), q)
      ensures MatchAt(s, q).None?
    {
      NoMatchOutside(s, i, q);
    }
  }

  /** `NormalizeLibraryToken`: drops one leading `:`. */
  function NormalizeLibraryToken(t: string): (r: string)
    ensures t == r || t == ":" + r
    ensures |r| < |t| <==> t != [] && t[0] == ':'
  {
    if t != [] && t[0] == ':' then t[1..] else t
  }

  /** A token that starts with `:` is that `:` followed by the name; any other token is the name. */
  lemma NormalizeDropsColon(t: string)
    ensures t != [] && t[0] == ':' ==> t == ":" + NormalizeLibraryToken(t)
    ensures !(t != [] && t[0] == ':') ==> NormalizeLibraryToken(t) == t
  {
    if t != [] && t[0] == ':' {
      assert t == [t[0]] + t[1..];
    }
  }

  /** Every hit spans at least `-l` and lies within `s`. */
  predicate HitsIn(s: string, hits: seq<Hit>) {
    forall k | 0 <= k < |hits| :: hits[k].start + 2 <= hits[k].end <= |s|
  }

  /** The reported names: capture group 1 of each hit, normalized. */
  function GroupNames(s: string, hits: seq<Hit>): (r: seq<string>)
    requires HitsIn(s, hits)
    ensures |r| == |hits|
  {
    if hits == [] then []
    else [NormalizeLibraryToken(s[hits[0].start + 2..hits[0].end])] + GroupNames(s, hits[1..])
  }

  lemma {:induction false} GroupNamesAt(s: string, hits: seq<Hit>, k: nat)
    requires HitsIn(s, hits)
    requires k < |hits|
    ensures GroupNames(s, hits)[k] == NormalizeLibraryToken(s[hits[k].start + 2..hits[k].end])
  {
    if k > 0 {
      GroupNamesAt(s, hits[1..], k - 1);
    }
  }

  /** A name a hit reports is the class run after `-l` and the optional `:`. */
  lemma GroupIsRun(s: string, h: Hit)
    requires h.start <= |s| && MatchAt(s, h.start) == Some(h.end)
    ensures NormalizeLibraryToken(s[h.start + 2..h.end]) == s[GroupStart(s, h.start)..h.end]
    ensures GroupStart(s, h.start) < h.end && AllNameChars(s, GroupStart(s, h.start), h.end)
  {
    var g := GroupStart(s, h.start);
    var t := s[h.start + 2..h.end];
    NameEndRun(s, g);
    if g == h.start + 2 {
      assert t[0] == s[h.start + 2] && IsNameChar(t[0]);
    } else {
      assert t == ":" + s[g..h.end];
    }
  }

  /** A non-empty run of class bytes: what a reported library name looks like. */
  predicate IsName(n: string) {
    n != [] && forall j | 0 <= j < |n| :: IsNameChar(n[j])
  }

  /** `ExtractLibrariesFromMakefile`. */
  function ExtractLibrariesFromMakefile(content: string): (r: seq<string>)
    ensures |r| == |HitsFrom(StripMakefileComments(content), 0)|
  {
    var s := StripMakefileComments(content);
    GroupNames(s, HitsFrom(s, 0))
  }

  /** The `k`-th reported name is a non-empty run of class bytes. */
  lemma NameIsRun(s: string, k: nat)
    requires k < |HitsFrom(s, 0)|
    ensures IsName(GroupNames(s, HitsFrom(s, 0))[k])
  {
    var hits := HitsFrom(s, 0);
    HitIsMatch(s, 0, k);
    GroupNamesAt(s, hits, k);
    GroupIsRun(s, hits[k]);
  }

  /** Every reported name is a non-empty run of class bytes, the `:` of `-l:` already dropped. */
  lemma ExtractedNamesAreRuns(content: string)
    ensures forall k | 0 <= k < |ExtractLibrariesFromMakefile(content)| :: IsName(ExtractLibrariesFromMakefile(content)[k])
  {
    var s := StripMakefileComments(content);
    forall k | 0 <= k < |ExtractLibrariesFromMakefile(content)|
      ensures IsName(ExtractLibrariesFromMakefile(content)[k])
    {
      NameIsRun(s, k);
    }
  }

  /** No byte of a match is a space. */
  lemma MatchHasNoSpace(s: string, p: nat, e: nat, i: nat)
    requires p <= |s| && MatchAt(s, p) == Some(e) && p <= i < e
    ensures s[i] != ' '
  {
    var g := GroupStart(s, p);
    if i >= g {
      NameEndRun(s, g);
      assert NameEnd(s, g) == e;
      assert IsNameChar(s[i]);
    }
  }

  /** No byte of a match lies in a comment: each is an original byte, not a blank. */
  lemma MatchAvoidsComments(content: string, h: Hit, q: nat)
    requires h.start <= |content| && MatchAt(StripMakefileComments(content), h.start) == Some(h.end)
    requires h.start < q <= h.end
    ensures !OpenAt(content, q)
    ensures StripMakefileComments(content)[q - 1] == content[q - 1]
  {
    MatchHasNoSpace(StripMakefileComments(content), h.start, h.end, q - 1);
  }

  /** A `-l` inside a comment reports nothing: every reported match is made of uncommented bytes. */
  lemma HitsAvoidComments(content: string)
    ensures forall k, q | 0 <= k < |HitsFrom(StripMakefileComments(content), 0)| &&
        HitsFrom(StripMakefileComments(content), 0)[k].start < q <= HitsFrom(StripMakefileComments(content), 0)[k].end ::
      !OpenAt(content, q)
  {
    var s := StripMakefileComments(content);
    var hits := HitsFrom(s, 0);
    forall k, q | 0 <= k < |hits| && hits[k].start < q <= hits[k].end
      ensures !OpenAt(content, q)
    {
      HitIsMatch(s, 0, k);
      MatchAvoidsComments(content, hits[k], q);
    }
  }

  /** A name written as a `-lname` flag followed by a space. */
  function Flag(n: string): string {
    "-l" + n + " "
  }

  /** Each name written as a flag, one after another. */
  function Flags(names: seq<string>): string {
    if names == [] then [] else Flag(names[0]) + Flags(names[1..])
  }

  lemma {:induction false} FlagsHaveNoHash(names: seq<string>)
    requires forall k | 0 <= k < |names| :: IsName(names[k])
    ensures '#' !in Flags(names)
  {
    if names != [] {
      var n := names[0];
      var rest := Flags(names[1..]);
      FlagsHaveNoHash(names[1..]);
      var s := Flag(n) + rest;
      assert forall k | 0 <= k < |n| :: s[k + 2] == n[k];
      assert forall k | 0 <= k < |rest| :: s[|n| + 3 + k] == rest[k];
      assert forall k | 0 <= k < |s| :: s[k] != '#';
    }
  }

  /** `NameEnd` stops at the first byte outside the class. */
  lemma {:induction false} NameEndAt(s: string, g: nat, e: nat)
    requires g <= e <= |s| && AllNameChars(s, g, e)
    requires e == |s| || !IsNameChar(s[e])
    ensures NameEnd(s, g) == e
    decreases e - g
  {
    if g < e {
      NameEndAt(s, g + 1, e);
    }
  }

  /** The flag `-lname ` is written at byte `i` of `s`. */
  predicate FlagIn(s: string, i: nat, n: string) {
    && IsName(n) && i + |n| + 3 <= |s|
    && s[i] == '-' && s[i + 1] == 'l' && s[i + |n| + 2] == ' '
    && s[i + 2..i + |n| + 2] == n
  }

  /** The scanner finds exactly the flag's `-lname` at byte `i`, and no match at the space after it. */
  lemma FlagMatch(s: string, i: nat, n: string)
    requires FlagIn(s, i, n)
    ensures MatchAt(s, i) == Some(i + |n| + 2)
    ensures MatchAt(s, i + |n| + 2).None?
  {
    var e := i + |n| + 2;
    assert s[i + 2] == n[0] && IsNameChar(n[0]);
    assert GroupStart(s, i) == i + 2;
    assert forall k | i + 2 <= k < e :: s[k] == n[k - i - 2];
    NameEndAt(s, i + 2, e);
  }

  /** A match at `i` that ends just before a byte where no match starts: scanning resumes after that byte. */
  lemma HitThenSkip(s: string, i: nat, e: nat)
    requires i <= |s| && MatchAt(s, i) == Some(e)
    requires e < |s| && MatchAt(s, e).None?
    ensures HitsFrom(s, i) == [Hit(i, e)] + HitsFrom(s, e + 1)
  {
    assert HitsFrom(s, e) == HitsFrom(s, e + 1);
  }

  /** A flag `-lname ` at byte `i` is reported as one match, after which scanning resumes past the space. */
  lemma FlagAt(s: string, i: nat, n: string)
    requires FlagIn(s, i, n)
    ensures HitsFrom(s, i) == [Hit(i, i + |n| + 2)] + HitsFrom(s, i + |n| + 3)
    ensures NormalizeLibraryToken(s[i + 2..i + |n| + 2]) == n
  {
    FlagMatch(s, i, n);
    HitThenSkip(s, i, i + |n| + 2);
    assert n[0] != ':' by {
      assert IsNameChar(n[0]);
    }
  }

  /** A flag at byte `i` reports its name, followed by the names found after it. */
  lemma FlagName(s: string, i: nat, n: string)
    requires FlagIn(s, i, n)
    ensures GroupNames(s, HitsFrom(s, i)) == [n] + GroupNames(s, HitsFrom(s, i + |n| + 3))
  {
    FlagAt(s, i, n);
    GroupNamesCons(s, Hit(i, i + |n| + 2), HitsFrom(s, i + |n| + 3));
  }

  /** The first of the flags written from byte `i`, and where the others start. */
  lemma FlagStep(s: string, i: nat, names: seq<string>)
    requires names != [] && IsName(names[0])
    requires i <= |s| && s[i..] == Flags(names)
    ensures FlagIn(s, i, names[0])
    ensures s[i + |names[0]| + 3..] == Flags(names[1..])
  {
    var n, f, r := names[0], Flag(names[0]), Flags(names[1..]);
    var t := s[i..];
    assert t == f + r;
    assert |f| == |n| + 3;
    assert t[0] == '-' && t[1] == 'l' && t[|n| + 2] == ' ';
    assert f[2..|n| + 2] == n;
    assert t[2..|n| + 2] == f[2..|n| + 2];
    SliceOfDrop(s, i, 2, |n| + 2);
    SliceOfDrop(s, i, |f|, |t|);
    assert t[|f|..] == r;
  }

  lemma SliceOfDrop(s: string, i: nat, a: nat, b: nat)
    requires i <= |s| && a <= b <= |s| - i
    ensures s[i..][a..b] == s[i + a..i + b]
  {
    assert forall k | 0 <= k < b - a :: s[i..][a..b][k] == s[i + a + k];
  }

  /** The flags for `names` are written one after another from byte `i` to the end of `s`. */
  predicate FlagsAt(s: string, i: nat, names: seq<string>)
    decreases |names|
  {
    if names == [] then i == |s|
    else FlagIn(s, i, names[0]) && FlagsAt(s, i + |names[0]| + 3, names[1..])
  }

  /** What `Flags` writes from byte `i` to the end is laid out flag after flag. */
  lemma {:induction false} FlagsLaidOut(s: string, i: nat, names: seq<string>)
    requires forall k | 0 <= k < |names| :: IsName(names[k])
    requires i <= |s| && s[i..] == Flags(names)
    ensures FlagsAt(s, i, names)
    decreases |names|
  {
    if names != [] {
      FlagStep(s, i, names);
      FlagsLaidOut(s, i + |names[0]| + 3, names[1..]);
    }
  }

  /** Flags written from byte `i` to the end are read back as the same names, in order. */
  lemma {:induction false} FlagsRead(s: string, i: nat, names: seq<string>)
    requires FlagsAt(s, i, names)
    ensures i <= |s| && GroupNames(s, HitsFrom(s, i)) == names
    decreases |names|
  {
    if names == [] {
      assert HitsFrom(s, i) == [];
    } else {
      FlagsRead(s, i + |names[0]| + 3, names[1..]);
      FlagThenNames(s, i, names);
    }
  }

  /** The name of the first flag, then the names read after it. */
  lemma FlagThenNames(s: string, i: nat, names: seq<string>)
    requires names != [] && FlagIn(s, i, names[0])
    requires GroupNames(s, HitsFrom(s, i + |names[0]| + 3)) == names[1..]
    ensures GroupNames(s, HitsFrom(s, i)) == names
  {
    FlagName(s, i, names[0]);
    assert [names[0]] + names[1..] == names;
  }

  lemma GroupNamesCons(s: string, h: Hit, hs: seq<Hit>)
    requires h.start + 2 <= h.end <= |s| && HitsIn(s, hs)
    ensures GroupNames(s, [h] + hs) == [NormalizeLibraryToken(s[h.start + 2..h.end])] + GroupNames(s, hs)
  {
    var hits := [h] + hs;
    assert hits[1..] == hs;
  }

  /** A Makefile made only of `-lname` flags lists exactly those names. */
  lemma ExtractFlags(names: seq<string>)
    requires forall k | 0 <= k < |names| :: IsName(names[k])
    ensures ExtractLibrariesFromMakefile(Flags(names)) == names
  {
    assert Flags(names)[0..] == Flags(names);
    FlagsLaidOut(Flags(names), 0, names);
    FlagsRead(Flags(names), 0, names);
    FlagsHaveNoHash(names);
    StripWithoutHash(Flags(names));
  }

  /** A name listed as a linker flag in the allowlist compares equal to the name the Makefile scan reports. */
  lemma FlagNamesAgree(g: string)
    ensures Allowlist.NormalizeLibName("-l" + g) == NormalizeLibraryToken(g)
  {
    var f := "-l" + g;
    assert f[..2] == "-l" && f[2..] == g;
  }
}

=== FILE: parens.dfy ===
/**
 * `FindMatchingParen` of src/cmake_fetchcontent.cpp: from an opening `(` token,
 * counts paren depth over Punct tokens until it returns to zero.
 */
module Parens {
  import opened Base
  import opened Lexer

  predicate IsOpen(t: Token) {
    t.kind == Punct && t.text == "("
  }

  predicate IsClose(t: Token) {
    t.kind == Punct && t.text == ")"
  }

  function Delta(t: Token): int {
    if IsOpen(t) then 1 else if IsClose(t) then -1 else 0
  }

  /** Net paren depth over `toks[lo..hi)`: opening parens minus closing ones. */
  function Depth(toks: seq<Token>, lo: nat, hi: nat): int
    requires lo <= hi <= |toks|
    decreases hi
  {
    if hi == lo then 0 else Depth(toks, lo, hi - 1) + Delta(toks[hi - 1])
  }

  /** The depth stays at one or more over every prefix `toks[open..m)` with `open < m <= k`. */
  predicate StaysOpen(toks: seq<Token>, open: nat, k: nat)
    requires open <= k <= |toks|
    decreases k - open
  {
    k == open || (StaysOpen(toks, open, k - 1) && Depth(toks, open, k) >= 1)
  }

  lemma {:induction false} StaysOpenAt(toks: seq<Token>, open: nat, k: nat, m: nat)
    requires open < m <= k <= |toks| && StaysOpen(toks, open, k)
    ensures Depth(toks, open, m) >= 1
    decreases k - m
  {
    if m < k {
      StaysOpenAt(toks, open, k - 1, m);
    }
  }

  /** `k` closes the call opened at `open`: depth stays positive up to `k` and drops to zero at it. */
  predicate Matches(toks: seq<Token>, open: nat, k: nat) {
    && open < k < |toks|
    && IsClose(toks[k])
    && Depth(toks, open, k + 1) == 0
    && StaysOpen(toks, open, k)
  }

  /** The scanning loop at index `i`, with `depth` the count so far. */
  function ScanFrom(toks: seq<Token>, open: nat, i: nat, depth: int): (r: Option<nat>)
    requires open <= i <= |toks| && open < |toks| && IsOpen(toks[open])
    requires depth == Depth(toks, open, i) && StaysOpen(toks, open, i)
    ensures r.Some? ==> i <= r.value && Matches(toks, open, r.value)
    ensures r.None? ==> StaysOpen(toks, open, |toks|)
    decreases |toks| - i
  {
    if i == |toks| then None
    else if toks[i].kind != Punct then ScanFrom(toks, open, i + 1, depth)
    else if toks[i].text == "(" then ScanFrom(toks, open, i + 1, depth + 1)
    else if toks[i].text == ")" then
      if depth - 1 == 0 then Some(i) else ScanFrom(toks, open, i + 1, depth - 1)
    else ScanFrom(toks, open, i + 1, depth)
  }

  /**
   * `FindMatchingParen`: `None` stands for `npos`. It fails unless `toks[open]`
   * is `(`, and otherwise returns the first index where the depth returns to zero.
   */
  function FindMatchingParen(toks: seq<Token>, open: nat): (r: Option<nat>)
    ensures !(open < |toks| && IsOpen(toks[open])) ==> r.None?
    ensures r.Some? ==> Matches(toks, open, r.value)
    ensures r.None? && open < |toks| && IsOpen(toks[open]) ==> StaysOpen(toks, open, |toks|)
  {
    if open >= |toks| then None
    else if !IsOpen(toks[open]) then None
    else ScanFrom(toks, open, open, 0)
  }

  /** A matching close is unique: no other index satisfies `Matches`. */
  lemma MatchIsUnique(toks: seq<Token>, open: nat, k1: nat, k2: nat)
    requires Matches(toks, open, k1) && Matches(toks, open, k2)
    ensures k1 == k2
  {
    if k1 < k2 {
      StaysOpenAt(toks, open, k2, k1 + 1);
    } else if k2 < k1 {
      StaysOpenAt(toks, open, k1, k2 + 1);
    }
  }

  /** `FindMatchingParen` fails exactly when no index matches. */
  lemma FindMatchingParenComplete(toks: seq<Token>, open: nat, k: nat)
    requires Matches(toks, open, k)
    ensures FindMatchingParen(toks, open) == Some(k)
  {
    StaysOpenAt(toks, open, k, open + 1);
    assert IsOpen(toks[open]);
    var r := FindMatchingParen(toks, open);
    if r.Some? {
      MatchIsUnique(toks, open, k, r.value);
    } else {
      StaysOpenAt(toks, open, |toks|, k + 1);
    }
  }

  /** Depth over a range is the sum of the depths of its two halves. */
  lemma {:induction false} DepthSplit(toks: seq<Token>, lo: nat, mid: nat, hi: nat)
    requires lo <= mid <= hi <= |toks|
    ensures Depth(toks, lo, hi) == Depth(toks, lo, mid) + Depth(toks, mid, hi)
    decreases hi
  {
    if hi > mid {
      DepthSplit(toks, lo, mid, hi - 1);
    }
  }
}

=== FILE: planner.dfy ===
/**
 * The planning half of `ReplaceFetchContentRepos` (src/cmake_fetchcontent.cpp):
 * each value token the loops reach is looked up in the repository map by its
 * exact text. A hit plans an edit of the token's span and logs
 * `original => mapped`; a miss logs the text as missing. Both logs keep the
 * first occurrence only.
 */
module Planner {
  import opened Base
  import opened Lexer
  import opened Calls
  import opened Unique
  import opened Splice

  datatype Plan = Plan(edits: seq<Edit>, replaced: seq<string>, missing: seq<string>)

  const Arrow: string := " => "

  /** The new text for a hit: the mapped value, wrapped in the token's own quote when it was a String. */
  function Requote(t: Token, mapped: string): (r: string)
    ensures |r| == |mapped| + (if t.kind == Str then 2 else 0)
    ensures t.kind == Str ==> r[0] == t.quote && r[|r| - 1] == t.quote && r[1..|r| - 1] == mapped
    ensures t.kind != Str ==> r == mapped
  {
    if t.kind == Str then [t.quote] + mapped + [t.quote] else mapped
  }

  /** The edit a hit on value token `t` plans: its span, its new text, and the two log texts. */
  function TokenEdit(t: Token, m: map<string, string>): Edit
    requires t.text in m
  {
    Edit(t.start, t.end, Requote(t, m[t.text]), t.text, m[t.text])
  }

  /** The body of the inner loop once a value token `t` is found. */
  function PlanValue(p: Plan, t: Token, m: map<string, string>): (r: Plan)
    ensures |r.edits| == |p.edits| + (if t.text in m then 1 else 0) && r.edits[..|p.edits|] == p.edits
    ensures t.text in m ==> r.edits[|p.edits|] == TokenEdit(t, m) && r.missing == p.missing
    ensures t.text in m ==> t.text + Arrow + m[t.text] in r.replaced
    ensures t.text !in m ==> r.replaced == p.replaced && t.text in r.missing
  {
    if t.text !in m then
      Plan(p.edits, p.replaced, AddUnique(p.missing, t.text))
    else
      var mapped := m[t.text];
      Plan(p.edits + [TokenEdit(t, m)],
           AddUnique(p.replaced, t.text + Arrow + mapped),
           p.missing)
  }

  predicate SitesIn(toks: seq<Token>, sites: seq<Site>) {
    forall k | 0 <= k < |sites| :: sites[k].value < |toks|
  }

  /** The text of the value token of site `k`. */
  function ValueText(toks: seq<Token>, sites: seq<Site>, k: nat): string
    requires SitesIn(toks, sites) && k < |sites|
  {
    toks[sites[k].value].text
  }

  /** The planning fold over the sites in the order the loops reach them. */
  function PlanSites(toks: seq<Token>, sites: seq<Site>, m: map<string, string>): (r: Plan)
    requires SitesIn(toks, sites)
    ensures NoDups(r.missing) && NoDups(r.replaced)
    ensures |r.edits| <= |sites|
    ensures forall x | x in r.missing :: x !in m
    ensures forall e | e in r.edits :: e.original in m && e.replacement == m[e.original]
    decreases |sites|
  {
    if sites == [] then Plan([], [], [])
    else
      var p := PlanSites(toks, sites[..|sites| - 1], m);
      PlanValue(p, toks[sites[|sites| - 1].value], m)
  }

  /** The missing log lists the missed texts in order of first occurrence; the replaced log likewise. */
  function MissedTexts(toks: seq<Token>, sites: seq<Site>, m: map<string, string>): seq<string>
    requires SitesIn(toks, sites)
    decreases |sites|
  {
    if sites == [] then []
    else
      var t := toks[sites[|sites| - 1].value];
      MissedTexts(toks, sites[..|sites| - 1], m) + (if t.text in m then [] else [t.text])
  }

  function HitLines(toks: seq<Token>, sites: seq<Site>, m: map<string, string>): seq<string>
    requires SitesIn(toks, sites)
    decreases |sites|
  {
    if sites == [] then []
    else
      var t := toks[sites[|sites| - 1].value];
      HitLines(toks, sites[..|sites| - 1], m) + (if t.text in m then [t.text + Arrow + m[t.text]] else [])
  }

  lemma {:induction false} PlanLogsAreUnique(toks: seq<Token>, sites: seq<Site>, m: map<string, string>)
    requires SitesIn(toks, sites)
    ensures PlanSites(toks, sites, m).missing == UniquePreserveOrder(MissedTexts(toks, sites, m))
    ensures PlanSites(toks, sites, m).replaced == UniquePreserveOrder(HitLines(toks, sites, m))
    decreases |sites|
  {
    if sites != [] {
      var init := sites[..|sites| - 1];
      PlanLogsAreUnique(toks, init, m);
      var t := toks[sites[|sites| - 1].value];
      var ms := MissedTexts(toks, init, m);
      var hs := HitLines(toks, init, m);
      if t.text in m {
        assert MissedTexts(toks, sites, m) == ms;
        var h := hs + [t.text + Arrow + m[t.text]];
        assert h[..|h| - 1] == hs;
      } else {
        assert HitLines(toks, sites, m) == hs;
        var x := ms + [t.text];
        assert x[..|x| - 1] == ms;
      }
    }
  }

  lemma {:induction false} LogTextsMembership(toks: seq<Token>, sites: seq<Site>, m: map<string, string>)
    requires SitesIn(toks, sites)
    ensures forall x :: x in MissedTexts(toks, sites, m) <==>
      x !in m && exists k | 0 <= k < |sites| :: ValueText(toks, sites, k) == x
    ensures forall y :: y in HitLines(toks, sites, m) <==>
      exists k | 0 <= k < |sites| :: ValueText(toks, sites, k) in m &&
        y == ValueText(toks, sites, k) + Arrow + m[ValueText(toks, sites, k)]
    decreases |sites|
  {
    if sites != [] {
      var init := sites[..|sites| - 1];
      var last := |sites| - 1;
      LogTextsMembership(toks, init, m);
      assert forall k | 0 <= k < |init| :: ValueText(toks, init, k) == ValueText(toks, sites, k);
      assert ValueText(toks, sites, last) == toks[sites[last].value].text;
    }
  }

  /**
   * The missing log holds exactly the texts of visited values that are not in
   * the map; the replaced log holds exactly `text => mapped` for those that are.
   */
  lemma PlanLogsMembership(toks: seq<Token>, sites: seq<Site>, m: map<string, string>)
    requires SitesIn(toks, sites)
    ensures forall x :: x in PlanSites(toks, sites, m).missing <==>
      x !in m && exists k | 0 <= k < |sites| :: ValueText(toks, sites, k) == x
    ensures forall y :: y in PlanSites(toks, sites, m).replaced <==>
      exists k | 0 <= k < |sites| :: ValueText(toks, sites, k) in m &&
        y == ValueText(toks, sites, k) + Arrow + m[ValueText(toks, sites, k)]
  {
    PlanLogsAreUnique(toks, sites, m);
    LogTextsMembership(toks, sites, m);
  }

  /** When no value is in the map, nothing is edited and nothing is logged as replaced. */
  lemma {:induction false} PlanWithoutHits(toks: seq<Token>, sites: seq<Site>, m: map<string, string>)
    requires SitesIn(toks, sites)
    requires forall k | 0 <= k < |sites| :: ValueText(toks, sites, k) !in m
    ensures PlanSites(toks, sites, m).edits == []
    ensures PlanSites(toks, sites, m).replaced == []
    decreases |sites|
  {
    if sites != [] {
      var init := sites[..|sites| - 1];
      assert forall k | 0 <= k < |init| :: ValueText(toks, init, k) == ValueText(toks, sites, k);
      assert ValueText(toks, sites, |init|) !in m;
      PlanWithoutHits(toks, init, m);
    }
  }

  /** Every planned edit ends at or before `bound` when every visited value token does. */
  lemma {:induction false} PlanEditsBounded(toks: seq<Token>, sites: seq<Site>, m: map<string, string>, bound: nat)
    requires SitesIn(toks, sites)
    requires forall k | 0 <= k < |sites| :: toks[sites[k].value].end <= bound
    ensures forall e | e in PlanSites(toks, sites, m).edits :: e.end <= bound
    decreases |sites|
  {
    if sites != [] {
      PlanEditsBounded(toks, sites[..|sites| - 1], m, bound);
    }
  }

  /**
   * Each planned edit covers exactly one token of the content: re-quoted with
   * the byte that opened it if and only if that byte is a quote, and with the
   * raw token bytes (inside the quotes for a String) as the looked-up text.
   */
  predicate EditFaithful(c: string, m: map<string, string>, e: Edit) {
    && e.start < e.end <= |c|
    && e.original in m && e.replacement == m[e.original]
    && (IsQuote(c[e.start]) ==>
          && e.newText == [c[e.start]] + e.replacement + [c[e.start]]
          && e.original == (if e.end - e.start >= 2 then c[e.start + 1..e.end - 1] else []))
    && (!IsQuote(c[e.start]) ==> e.newText == e.replacement && e.original == c[e.start..e.end])
  }

  lemma {:induction false} PlanEditsFaithful(c: string, toks: seq<Token>, sites: seq<Site>, m: map<string, string>)
    requires SitesIn(toks, sites)
    requires forall k | 0 <= k < |toks| :: TokenOk(c, toks[k])
    requires forall k | 0 <= k < |sites| :: toks[sites[k].value].kind != Punct
    ensures forall e | e in PlanSites(toks, sites, m).edits :: EditFaithful(c, m, e)
    decreases |sites|
  {
    if sites != [] {
      PlanEditsFaithful(c, toks, sites[..|sites| - 1], m);
      var t := toks[sites[|sites| - 1].value];
      assert TokenOk(c, t);
    }
  }

  /** Strictly ascending value tokens give ordered, non-overlapping edits. */
  lemma {:induction false} PlanEditsAscending(c: string, toks: seq<Token>, sites: seq<Site>, m: map<string, string>)
    requires SitesIn(toks, sites)
    requires forall k | 0 <= k < |toks| :: TokenOk(c, toks[k])
    requires Ascending(toks)
    requires ValuesAscend(sites)
    ensures EditsAscending(PlanSites(toks, sites, m).edits, |c|)
    decreases |sites|
  {
    if sites != [] {
      var init := sites[..|sites| - 1];
      var t := toks[sites[|sites| - 1].value];
      PlanEditsAscending(c, toks, init, m);
      PlanEditsBounded(toks, init, m, t.start);
      assert TokenOk(c, t);
      var q, edits := PlanSites(toks, init, m).edits, PlanSites(toks, sites, m).edits;
      if t.text in m {
        assert edits == q + [TokenEdit(t, m)];
      } else {
        assert edits == q;
      }
    }
  }

  /** The positions of the sites whose value text is in the map, in site order. */
  function HitSites(toks: seq<Token>, sites: seq<Site>, m: map<string, string>): (r: seq<nat>)
    requires SitesIn(toks, sites)
    ensures forall a | 0 <= a < |r| :: r[a] < |sites| && ValueText(toks, sites, r[a]) in m
    decreases |sites|
  {
    if sites == [] then []
    else
      var init := sites[..|sites| - 1];
      assert forall k | 0 <= k < |init| :: ValueText(toks, init, k) == ValueText(toks, sites, k);
      HitSites(toks, init, m) + (if ValueText(toks, sites, |init|) in m then [|init|] else [])
  }

  /** `HitSites` lists every hit exactly once, in increasing order. */
  lemma {:induction false} HitSitesComplete(toks: seq<Token>, sites: seq<Site>, m: map<string, string>)
    requires SitesIn(toks, sites)
    ensures forall a, b | 0 <= a < b < |HitSites(toks, sites, m)| :: HitSites(toks, sites, m)[a] < HitSites(toks, sites, m)[b]
    ensures forall k | 0 <= k < |sites| && ValueText(toks, sites, k) in m :: k in HitSites(toks, sites, m)
    decreases |sites|
  {
    if sites != [] {
      var init := sites[..|sites| - 1];
      HitSitesComplete(toks, init, m);
      assert forall k | 0 <= k < |init| :: ValueText(toks, init, k) == ValueText(toks, sites, k);
    }
  }

  /** Planning the last site adds its edit, if it is a hit, after the earlier ones. */
  lemma PlanStep(toks: seq<Token>, sites: seq<Site>, m: map<string, string>)
    requires SitesIn(toks, sites) && sites != []
    ensures var n := |sites| - 1; var t := toks[sites[n].value];
      && PlanSites(toks, sites, m).edits == PlanSites(toks, sites[..n], m).edits + (if t.text in m then [TokenEdit(t, m)] else [])
      && HitSites(toks, sites, m) == HitSites(toks, sites[..n], m) + (if t.text in m then [n] else [])
  {
    var n := |sites| - 1;
    var q, edits := PlanSites(toks, sites[..n], m).edits, PlanSites(toks, sites, m).edits;
    assert edits == edits[..|q|] + edits[|q|..];
  }

  /**
   * The planned edits are exactly the edits of the hit sites, one each, in
   * site order: edit `a` is the `TokenEdit` of the value token of the `a`-th hit.
   */
  lemma {:induction false} PlanEditsAreHits(toks: seq<Token>, sites: seq<Site>, m: map<string, string>)
    requires SitesIn(toks, sites)
    ensures |PlanSites(toks, sites, m).edits| == |HitSites(toks, sites, m)|
    ensures forall a | 0 <= a < |HitSites(toks, sites, m)| ::
      PlanSites(toks, sites, m).edits[a] == TokenEdit(toks[sites[HitSites(toks, sites, m)[a]].value], m)
    decreases |sites|
  {
    if sites != [] {
      var init := sites[..|sites| - 1];
      PlanEditsAreHits(toks, init, m);
      PlanStep(toks, sites, m);
      var h0, h := HitSites(toks, init, m), HitSites(toks, sites, m);
      var q, edits := PlanSites(toks, init, m).edits, PlanSites(toks, sites, m).edits;
      forall a | 0 <= a < |h|
        ensures edits[a] == TokenEdit(toks[sites[h[a]].value], m)
      {
        if a < |h0| {
          assert h[a] == h0[a] && edits[a] == q[a];
          assert sites[h0[a]] == init[h0[a]];
        }
      }
    }
  }

  /** Planning one more site keeps the edits planned so far, in place. */
  lemma PlanEditsExtend(toks: seq<Token>, sites: seq<Site>, m: map<string, string>)
    requires SitesIn(toks, sites) && sites != []
    ensures var p, q := PlanSites(toks, sites, m).edits, PlanSites(toks, sites[..|sites| - 1], m).edits;
      |q| <= |p| && p[..|q|] == q
  {
  }

  /** A visited value whose text is in the map has an edit of its token's span. */
  lemma {:induction false} EditForSite(toks: seq<Token>, sites: seq<Site>, m: map<string, string>, k: nat)
    requires SitesIn(toks, sites) && k < |sites| && ValueText(toks, sites, k) in m
    ensures exists a | 0 <= a < |PlanSites(toks, sites, m).edits| ::
      PlanSites(toks, sites, m).edits[a].start == toks[sites[k].value].start &&
      PlanSites(toks, sites, m).edits[a].end == toks[sites[k].value].end
    decreases |sites|
  {
    var edits := PlanSites(toks, sites, m).edits;
    if k < |sites| - 1 {
      var init := sites[..|sites| - 1];
      assert ValueText(toks, init, k) == ValueText(toks, sites, k);
      EditForSite(toks, init, m, k);
      PlanEditsExtend(toks, sites, m);
      var q := PlanSites(toks, init, m).edits;
      var a :| 0 <= a < |q| && q[a].start == toks[sites[k].value].start && q[a].end == toks[sites[k].value].end;
      assert edits[..|q|][a] == edits[a];
    } else {
      assert edits[|edits| - 1].start == toks[sites[k].value].start;
    }
  }

  /**
   * A value token visited twice, with its text in the map, is edited twice:
   * two planned edits cover the same span.
   */
  lemma {:induction false} RevisitedTokenEditedTwice(toks: seq<Token>, sites: seq<Site>, m: map<string, string>, k1: nat, k2: nat)
    requires SitesIn(toks, sites) && k1 < k2 < |sites|
    requires sites[k1].value == sites[k2].value && ValueText(toks, sites, k1) in m
    ensures exists a, b | 0 <= a < b < |PlanSites(toks, sites, m).edits| ::
      PlanSites(toks, sites, m).edits[a].start == PlanSites(toks, sites, m).edits[b].start == toks[sites[k1].value].start &&
      PlanSites(toks, sites, m).edits[a].end == toks[sites[k1].value].end
    decreases |sites|
  {
    var init := sites[..|sites| - 1];
    var edits := PlanSites(toks, sites, m).edits;
    var q := PlanSites(toks, init, m).edits;
    var t := toks[sites[k1].value];
    assert ValueText(toks, init, k1) == ValueText(toks, sites, k1);
    PlanEditsExtend(toks, sites, m);
    if k2 < |sites| - 1 {
      RevisitedTokenEditedTwice(toks, init, m, k1, k2);
      var a, b :| 0 <= a < b < |q| && q[a].start == q[b].start == t.start && q[a].end == t.end;
      assert edits[..|q|][a] == edits[a] && edits[..|q|][b] == edits[b];
    } else {
      EditForSite(toks, init, m, k1);
      var a :| 0 <= a < |q| && q[a].start == t.start && q[a].end == t.end;
      assert edits[..|q|][a] == edits[a];
      assert edits[|edits| - 1].start == t.start;
    }
  }

  /** Two visits of one mapped, non-empty value token make the planned edits overlap. */
  lemma RevisitedTokenOverlaps(n: nat, toks: seq<Token>, sites: seq<Site>, m: map<string, string>, k1: nat, k2: nat)
    requires SitesIn(toks, sites) && k1 < |sites| && k2 < |sites| && k1 != k2
    requires sites[k1].value == sites[k2].value && ValueText(toks, sites, k1) in m
    requires toks[sites[k1].value].start < toks[sites[k1].value].end
    ensures !EditsAscending(PlanSites(toks, sites, m).edits, n)
  {
    if k1 < k2 {
      RevisitedTokenEditedTwice(toks, sites, m, k1, k2);
    } else {
      RevisitedTokenEditedTwice(toks, sites, m, k2, k1);
    }
  }

  /** Value tokens with well-formed spans give edits with well-formed spans. */
  lemma {:induction false} PlanSpansOk(toks: seq<Token>, sites: seq<Site>, m: map<string, string>)
    requires SitesIn(toks, sites)
    requires forall k | 0 <= k < |toks| :: toks[k].start <= toks[k].end
    ensures SpansOk(PlanSites(toks, sites, m).edits)
    decreases |sites|
  {
    if sites != [] {
      PlanSpansOk(toks, sites[..|sites| - 1], m);
    }
  }
}

=== FILE: splice.dfy ===
/**
 * The splicing half of `ReplaceFetchContentRepos` (src/cmake_fetchcontent.cpp):
 * planned edits are applied to a copy of the content from the last planned
 * edit back to the first, each with `std::string::replace`.
 */
module Splice {
  import opened Base

  /** `Replacement` of src/cmake_fetchcontent.cpp: a span, its new bytes, and the two log texts. */
  datatype Edit = Edit(start: nat, end: nat, newText: string, original: string, replacement: string)

  /** The `std::out_of_range` that `std::string::replace` throws when `pos` is past the end. */
  datatype SpliceError = OutOfRange(pos: nat, size: nat)

  function Min(a: nat, b: nat): nat {
    if a <= b then a else b
  }

  /**
   * `s.replace(pos, len, str)`: throws when `pos > |s|`; otherwise replaces the
   * `len` bytes at `pos`, or all bytes from `pos` to the end when fewer remain.
   */
  function StringReplace(s: string, pos: nat, len: nat, str: string): (r: Result<string, SpliceError>)
    ensures r.Failure? <==> pos > |s|
    ensures r.Success? ==>
      && |r.value| == |s| - (Min(pos + len, |s|) - pos) + |str|
      && r.value[..pos] == s[..pos]
      && r.value[pos..pos + |str|] == str
      && r.value[pos + |str|..] == s[Min(pos + len, |s|)..]
  {
    if pos > |s| then Failure(OutOfRange(pos, |s|))
    else Success(s[..pos] + str + s[Min(pos + len, |s|)..])
  }

  predicate SpansOk(edits: seq<Edit>) {
    forall k | 0 <= k < |edits| :: edits[k].start <= edits[k].end
  }

  /** The reverse loop: the last edit is applied first, to the text as it stands. */
  function ApplyReverse(s: string, edits: seq<Edit>): (r: Result<string, SpliceError>)
    requires SpansOk(edits)
    ensures edits == [] ==> r == Success(s)
    ensures r.Failure? ==> r.error.size < r.error.pos && exists k | 0 <= k < |edits| :: edits[k].start == r.error.pos
    decreases |edits|
  {
    if edits == [] then Success(s)
    else
      var e := edits[|edits| - 1];
      match StringReplace(s, e.start, e.end - e.start, e.newText)
      case Failure(err) => Failure(err)
      case Success(s') => ApplyReverse(s', edits[..|edits| - 1])
  }

  /** Edits whose spans lie inside a text of length `n`, in order and without overlap. */
  predicate EditsAscending(edits: seq<Edit>, n: nat) {
    && (forall k | 0 <= k < |edits| :: edits[k].start <= edits[k].end <= n)
    && (forall a, b | 0 <= a < b < |edits| :: edits[a].end <= edits[b].start)
  }

  /**
   * The intended result of a rewrite, built front to back from the ORIGINAL
   * offsets: each gap of `c` between two spans is copied verbatim, and each span
   * is replaced by its new text.
   */
  function Assemble(c: string, edits: seq<Edit>, from: nat): string
    requires EditsAscending(edits, |c|) && from <= |c|
    requires edits != [] ==> from <= edits[0].start
    decreases |edits|
  {
    if edits == [] then c[from..]
    else c[from..edits[0].start] + edits[0].newText + Assemble(c, edits[1..], edits[0].end)
  }

  /** Sum of the length changes of all edits. */
  function SumDelta(edits: seq<Edit>): int {
    if edits == [] then 0
    else |edits[0].newText| - (edits[0].end - edits[0].start) + SumDelta(edits[1..])
  }

  /** Sum of the length changes of the edits that end at or before byte `p`. */
  function ShiftBefore(edits: seq<Edit>, p: nat): int {
    if edits == [] then 0
    else
      var d := if edits[0].end <= p then |edits[0].newText| - (edits[0].end - edits[0].start) else 0;
      d + ShiftBefore(edits[1..], p)
  }

  predicate OutsideSpans(edits: seq<Edit>, p: nat) {
    forall k | 0 <= k < |edits| :: !(edits[k].start <= p < edits[k].end)
  }

  lemma {:induction false} AssembleLength(c: string, edits: seq<Edit>, from: nat)
    requires EditsAscending(edits, |c|) && from <= |c|
    requires edits != [] ==> from <= edits[0].start
    ensures |Assemble(c, edits, from)| == |c| - from + SumDelta(edits)
    decreases |edits|
  {
    if edits != [] {
      AssembleLength(c, edits[1..], edits[0].end);
    }
  }

  lemma {:induction false} ShiftBeforeZero(edits: seq<Edit>, p: nat)
    requires forall k | 0 <= k < |edits| :: p < edits[k].end
    ensures ShiftBefore(edits, p) == 0
    decreases |edits|
  {
    if edits != [] {
      ShiftBeforeZero(edits[1..], p);
    }
  }

  /** Every byte of `c` outside all spans reappears in the output, shifted by the edits before it. */
  lemma {:induction false} AssemblePreserves(c: string, edits: seq<Edit>, from: nat, p: nat)
    requires EditsAscending(edits, |c|) && from <= p < |c|
    requires edits != [] ==> from <= edits[0].start
    requires OutsideSpans(edits, p)
    ensures 0 <= p - from + ShiftBefore(edits, p) < |Assemble(c, edits, from)|
    ensures Assemble(c, edits, from)[p - from + ShiftBefore(edits, p)] == c[p]
    decreases |edits|
  {
    if edits == [] {
    } else {
      var e := edits[0];
      var rest := Assemble(c, edits[1..], e.end);
      assert Assemble(c, edits, from) == c[from..e.start] + e.newText + rest;
      if p < e.start {
        ShiftBeforeZero(edits, p);
        AssembleLength(c, edits, from);
      } else {
        assert e.end <= p;
        AssemblePreserves(c, edits[1..], e.end, p);
      }
    }
  }

  lemma {:induction false} AssembleAfterLast(c: string, init: seq<Edit>, last: Edit, from: nat)
    requires EditsAscending(init + [last], |c|) && from <= |c|
    requires last.start <= last.end <= |c|
    requires from <= (init + [last])[0].start
    ensures last.start <= |c[..last.start] + last.newText + c[last.end..]|
    ensures EditsAscending(init, |c[..last.start] + last.newText + c[last.end..]|)
    ensures Assemble(c[..last.start] + last.newText + c[last.end..], init, from)
         == Assemble(c, init + [last], from)
    decreases |init|
  {
    var edits := init + [last];
    var c' := c[..last.start] + last.newText + c[last.end..];
    assert edits[|init|] == last;
    assert forall k | 0 <= k < |init| :: init[k] == edits[k];
    if init == [] {
      assert c'[from..] == c[from..last.start] + last.newText + c[last.end..];
    } else {
      var e := init[0];
      assert edits[1..] == init[1..] + [last];
      assert c'[from..e.start] == c[from..e.start];
      AssembleAfterLast(c, init[1..], last, e.end);
    }
  }

  /** Length and byte preservation of the front-to-back assembly, from its first byte. */
  lemma AssembleKeepsOutside(c: string, edits: seq<Edit>)
    requires EditsAscending(edits, |c|)
    ensures |Assemble(c, edits, 0)| == |c| + SumDelta(edits)
    ensures forall p | 0 <= p < |c| && OutsideSpans(edits, p) ::
      0 <= p + ShiftBefore(edits, p) < |Assemble(c, edits, 0)| &&
      Assemble(c, edits, 0)[p + ShiftBefore(edits, p)] == c[p]
  {
    AssembleLength(c, edits, 0);
    forall p | 0 <= p < |c| && OutsideSpans(edits, p)
      ensures 0 <= p + ShiftBefore(edits, p) < |Assemble(c, edits, 0)|
      ensures Assemble(c, edits, 0)[p + ShiftBefore(edits, p)] == c[p]
    {
      AssemblePreserves(c, edits, 0, p);
    }
  }

  /**
   * For ordered, non-overlapping edits the back-to-front loop never throws and
   * produces exactly the front-to-back assembly over the original offsets.
   */
  lemma {:induction false} ApplyReverseAssembles(c: string, edits: seq<Edit>)
    requires EditsAscending(edits, |c|)
    ensures SpansOk(edits)
    ensures ApplyReverse(c, edits) == Success(Assemble(c, edits, 0))
    decreases |edits|
  {
    if edits != [] {
      var init := edits[..|edits| - 1];
      var last := edits[|edits| - 1];
      assert edits == init + [last];
      assert last.start <= last.end <= |c|;
      var c' := c[..last.start] + last.newText + c[last.end..];
      assert StringReplace(c, last.start, last.end - last.start, last.newText) == Success(c');
      AssembleAfterLast(c, init, last, 0);
      ApplyReverseAssembles(c', init);
    }
  }

  /**
   * `out` is `c` with each of the ordered `edits` replaced in place: the
   * front-to-back assembly, whose length changes by the sum of the deltas and
   * which keeps every byte outside the spans, shifted by the edits before it.
   */
  predicate SplicedInPlace(c: string, edits: seq<Edit>, out: string)
    requires EditsAscending(edits, |c|)
  {
    && out == Assemble(c, edits, 0)
    && |out| == |c| + SumDelta(edits)
    && forall p | 0 <= p < |c| && OutsideSpans(edits, p) ::
         0 <= p + ShiftBefore(edits, p) < |out| && out[p + ShiftBefore(edits, p)] == c[p]
  }

  /** The back-to-front loop over ordered edits succeeds and splices in place. */
  lemma SpliceOrdered(c: string, edits: seq<Edit>)
    requires EditsAscending(edits, |c|)
    ensures SpansOk(edits) && ApplyReverse(c, edits).Success?
    ensures SplicedInPlace(c, edits, ApplyReverse(c, edits).value)
  {
    ApplyReverseAssembles(c, edits);
    AssembleKeepsOutside(c, edits);
  }
}

=== FILE: unique.dfy ===
/**
 * Order-preserving de-duplication: `AddUnique` of src/cmake_fetchcontent.cpp
 * (a vector plus a `seen` set used only for membership) and
 * `UniquePreserveOrder` of src/main.cpp, which is the same step folded over a
 * whole vector. The `seen` set always holds exactly the vector's elements, so
 * it is modelled by membership in the sequence itself.
 */
module Unique {

  predicate NoDups(s: seq<string>) {
    forall a, b | 0 <= a < b < |s| :: s[a] != s[b]
  }

  /** Index of the first occurrence of `x` in `s`. */
  function FirstIndex(s: seq<string>, x: string): (r: nat)
    requires x in s
    ensures r < |s| && s[r] == x
    ensures forall k | 0 <= k < r :: s[k] != x
  {
    if s[0] == x then 0 else 1 + FirstIndex(s[1..], x)
  }

  /** Appends `v` unless it is already logged. */
  function AddUnique(out: seq<string>, v: string): (r: seq<string>)
    ensures v in r
    ensures forall x :: x in r <==> x in out || x == v
    ensures NoDups(out) ==> NoDups(r)
    ensures v in out <==> r == out
    ensures v !in out <==> r == out + [v]
  {
    if v in out then out else out + [v]
  }

  /** `UniquePreserveOrder`: keeps the first occurrence of every value. */
  function UniquePreserveOrder(vs: seq<string>): (r: seq<string>)
    ensures NoDups(r)
    ensures forall x :: x in r <==> x in vs
    ensures |r| <= |vs|
  {
    if vs == [] then [] else AddUnique(UniquePreserveOrder(vs[..|vs| - 1]), vs[|vs| - 1])
  }

  lemma FirstIndexOfPrefix(s: seq<string>, y: string, x: string)
    requires x in s
    ensures FirstIndex(s + [y], x) == FirstIndex(s, x)
  {
    var k := FirstIndex(s, x);
    var j := FirstIndex(s + [y], x);
    assert (s + [y])[k] == x;
    assert j <= k < |s|;
    assert s[j] == (s + [y])[j];
  }

  /** The kept values appear in the order of their first occurrence in the input. */
  lemma {:induction false} UniqueOrderedByFirstOccurrence(vs: seq<string>)
    ensures forall a, b | 0 <= a < b < |UniquePreserveOrder(vs)| ::
      FirstIndex(vs, UniquePreserveOrder(vs)[a]) < FirstIndex(vs, UniquePreserveOrder(vs)[b])
  {
    if vs != [] {
      var init := vs[..|vs| - 1];
      var y := vs[|vs| - 1];
      assert vs == init + [y];
      var d := UniquePreserveOrder(init);
      var r := UniquePreserveOrder(vs);
      UniqueOrderedByFirstOccurrence(init);
      forall a, b | 0 <= a < b < |r|
        ensures FirstIndex(vs, r[a]) < FirstIndex(vs, r[b])
      {
        assert r[a] in d;
        FirstIndexOfPrefix(init, y, r[a]);
        if b < |d| {
          FirstIndexOfPrefix(init, y, r[b]);
        } else {
          assert r == d + [y] && r[b] == y && y !in init;
          assert FirstIndex(vs, y) == |init|;
        }
      }
    }
  }

  /** A sequence without duplicates is its own de-duplication. */
  lemma {:induction false} UniqueOfNoDups(vs: seq<string>)
    requires NoDups(vs)
    ensures UniquePreserveOrder(vs) == vs
  {
    if vs != [] {
      var init := vs[..|vs| - 1];
      UniqueOfNoDups(init);
      assert vs[|vs| - 1] !in init;
      assert init + [vs[|vs| - 1]] == vs;
    }
  }

  /** `UniquePreserveOrder` is idempotent. */
  lemma UniqueIdempotent(vs: seq<string>)
    ensures UniquePreserveOrder(UniquePreserveOrder(vs)) == UniquePreserveOrder(vs)
  {
    UniqueOfNoDups(UniquePreserveOrder(vs));
  }
}
